=== FILE: README.md ===
# Card table bookkeeping of RemoteCardGameProgram, in Dafny

RemoteCardGameProgram is a tkinter table for playing a trading card game
over a video call. Behind the canvases it keeps a small amount of state, and
this project models that state with proved contracts:

- **Cards** (`cards.dfy`, Object.py `Card` and `CheckObject`).
  - A card token carries an id `"id_" + index` and a category.
  - Only "ポケモン" cards have an hp counter, stepped in 10s with a floor at 0.
  - Three flags toggle: check, poisoned and burned.
  - One slot holds at most one of the three conditions.
  - There are reset rules, and ordering by creation index.
  - The on/off table markers are modelled too.
- **Zones** (`zones.dfy`, GameEngine.py `GameSystem`).
  - Each zone is a list of cards, with `pop_card`, `add_card`, `find_card`
    and `random.shuffle`.
  - The shuffle is Python's Fisher–Yates loop, driven by caller-supplied draws.
- **The table** (`master.dfy`, GameEngine.py `Master`).
  - Seven zones keyed by name (Field, Deck, Hand, Temp, Trash, Side, Lost).
  - The single move rule `move_crad` and `pop_card_all`.
  - The Field play counter.
  - Match start: create or regather the cards, shuffle, then deal 7 to the
    hand and 6 to the side pile; match end.
  - The status update of a Field card.
- **The deck list** (`decklist.dfy`, GameEngine.py `CardList`).
  - The 60-card check.
  - The text file format written by `save` and read by `load_local`.
  - `load_online` applied to the ids that were fetched.
- **Setting.py helpers** (`settings.dfy`).
  - Colour inversion `get_reverse_color`.
  - The geometry string and the canvas size.
  - Expansion of the hidden deck-code values into card ids.
  - The 12 × 5 grid of the deck picture.
- **Application.py logic** (`application.dfy`).
  - The minutes/seconds match timer.
  - Parsing of the window geometry string.
  - Deck-folder navigation.
  - The folders-first file listing.
  - The start gate that refuses a deck of the wrong size.

Shared pieces:

- `outcomes.dfy` holds the `Result`, `Option` and `Outcome` types. A Python
  exception is a `Failure` naming its cause (empty pop, missing element,
  bad int, bad unpack, short string, missing card). A call that can raise
  after it has already changed the table, such as `start`, returns an
  `Outcome`: the table as it was left, and the exception raised, if any.
- `strings.dfy` holds the Python string primitives the program uses.
  - `split` and `join` are proved to undo each other, and `int` is proved
    to undo `str`.
  - `replace(pat, "")` has its laws for a leading and a trailing occurrence
    and for a text the pattern cannot start in.
  - String `<` is proved a strict total order.
  - `UniversalNewlines` is the newline translation of a text-mode read:
    "\r\n" and a lone '\r' each become '\n'.

Cards are compared by value. The ids of one table are distinct, so this
agrees with the object identity that Python's `list.remove` uses. Files,
directory listings, the card image file name and the random draws are
parameters. A file is its text; reading it in text mode turns every "\r\n"
and every lone '\r' into '\n', as Python's default `newline=None` does.

## Model

| member | source | states |
|---|---|---|
| `Strings.Split` | GameEngine.py:49 | `split(sep)` always returns at least one piece, the empty text giving one empty piece |
| `Strings.SplitJoin` | GameEngine.py:49-50 | reading the lines of a text joined with '\n' gives back exactly the separator-free pieces that were joined |
| `Strings.JoinSplit` | Application.py:351 | joining the pieces of a split with the separator gives back the original string |
| `Strings.SplitPiecesFree` | Application.py:83-85 | no piece produced by `split(sep)` contains the separator |
| `Strings.SplitAppend` | GameEngine.py:48 | splitting at a separator splits the two sides independently and concatenates the pieces |
| `Strings.SplitCons` | Object.py:27 | a separator-free prefix followed by the separator becomes the first piece of the split |
| `Strings.UniversalNewlines` | GameEngine.py:49 | a text-mode read leaves no '\r' in the text, never lengthens it, and leaves a text without '\r' unchanged |
| `Strings.UniversalNewlinesCrLf` | GameEngine.py:49 | a "\r\n" after text without '\r' is read as one '\n', and the read goes on with the rest |
| `Strings.UniversalNewlinesReturnBetween` | GameEngine.py:49 | a lone '\r' between two texts without '\r' is read as '\n' |
| `Strings.RemoveAllTrailing` | GameEngine.py:48 | `replace(".txt", "")` on a name ending in ".txt", with no '.' before it, strips exactly that suffix |
| `Strings.RemoveAllLeading` | Object.py:36 | `replace("id_", "")` removes a leading "id_" and then works on the rest |
| `Strings.ParseNatStr` | Object.py:18 | reading back the decimal text of a natural number gives that number |
| `Strings.ParseIntStr` | Object.py:35-36 | `int(str(i)) == i` for every integer, negative ones included |
| `Strings.IntStrHasNoSymbol` | Setting.py:43-47 | the decimal text of an integer contains no character other than digits and '-' |
| `Strings.LexLessTotal` | Application.py:247 | Python string `<` orders any two different strings one way or the other |
| `Strings.LexLessTransitive` | Application.py:247 | Python string `<` is transitive |
| `Cards.NewCard` | Object.py:16-32 | a card is created only if the image file name minus ".jpg" splits on '_' into two parts; it gets id "id_"+index, every status field cleared, and an hp counter at 0 exactly when its category is "ポケモン" |
| `Cards.NewCardFromFileName` | Setting.py:93 | a card created from a file name the image cache writes gets that category and name back |
| `Cards.GetIndexOfId` | Object.py:35-36 | `_get_index` recovers the creation index from the id |
| `Cards.IdOfInjective` | Object.py:18 | cards created with different indices have different ids |
| `Cards.LessIsIndexOrder` | Object.py:38-39 | `__lt__` is the order of creation indices: decided one way for distinct indices, false between a card and itself |
| `Cards.HpUpdate` | Object.py:64-71 | a positive delta adds 10; any other delta subtracts 10, floored at 0; cards without hp are unchanged; no field other than hp changes |
| `Cards.StatUpdate` | Object.py:74-86 | each flag key toggles exactly its flag; a condition key clears the slot if it already holds that condition and sets it otherwise; any other key changes nothing |
| `Cards.CardReset` | Object.py:45-55 | every status goes back to its initial value, hp stays present or absent, and identity, category and name are kept |
| `Cards.TurnReset` | Object.py:57-62 | the check mark is cleared and nothing else changes |
| `Cards.CardTail` | Object.py:41-43 | the card is turned face down and nothing else changes |
| `Cards.OperationsPreserveWellformed` | Object.py:41-86 | every status operation keeps hp present exactly on "ポケモン" cards, as a non-negative multiple of 10, with the condition slot empty or holding one condition |
| `Cards.HpUpdateWellformed` | Object.py:64-71 | hp stays a non-negative multiple of 10 under `hp_update` |
| `Cards.StatUpdateWellformed` | Object.py:81-85 | the condition slot only ever receives one of the three condition keys |
| `Cards.FlagToggleInvolution` | Object.py:74-80 | the same flag key applied twice restores the card |
| `Cards.ConditionTwice` | Object.py:81-85 | a condition key applied twice restores the card exactly when the slot was empty or already held that condition |
| `Cards.ConditionExclusive` | Object.py:81-85 | after a condition key the slot holds nothing or that condition, and it holds that condition exactly when it did not before |
| `Cards.HpUpThenDown` | Object.py:64-71 | up then down restores hp; down then up restores it exactly when hp was above 0 or absent |
| `Cards.ResetMatchesCreation` | Object.py:45-55 | a freshly created card is already in the state `card_reset` produces |
| `Cards.ResetIdempotent` | Object.py:45-55 | resetting twice is resetting once |
| `Cards.Click` | Object.py:276-278 | a click flips the marker |
| `Cards.MarkerReset` | Object.py:297-299 | reset leaves the marker off, so the next click turns it on |
| `Zones.PopFront` | GameEngine.py:178-179 | on a non-empty zone, the front card and the rest in order; an empty zone raises |
| `Zones.RemoveFirst` | GameEngine.py:180-181 | `list.remove` deletes exactly the first occurrence and keeps the other cards in order; an absent card raises |
| `Zones.PopCard` | GameEngine.py:173-182 | returns the named card (or the front one) and what remains, which together are the old zone as a multiset; raises when the card is absent or the zone is empty |
| `Zones.AddCard` | GameEngine.py:189-190 | appends at the back and no card already in the zone moves |
| `Zones.FindIndex` | GameEngine.py:192-195 | finds the first position whose id is the tag, and finds nothing exactly when no card has that id |
| `Zones.FindCard` | GameEngine.py:192-195 | returns the first card of the zone whose id is the tag (no earlier card has it), or `None` exactly when no card has it |
| `Zones.ShuffleSteps` | GameEngine.py:585-586 | each Fisher–Yates swap keeps the length and the multiset of cards |
| `Zones.Shuffle` | GameEngine.py:585-586 | a shuffle is a permutation of the zone, whatever the draws |
| `Master.AddTo` | GameEngine.py:348-357 | a card is appended to one zone, the others are untouched, and the play counter grows by one only when the zone is the Field |
| `Master.AddToAdds` | GameEngine.py:189-190 | adding a card adds exactly that card to the table's multiset of cards |
| `Master.MoveCard` | GameEngine.py:340-346 | a move succeeds exactly when the removal succeeds; on success the card leaves the source and is appended to the destination, no other zone changes, and the counter grows only for moves to the Field |
| `Master.MoveCardConserves` | GameEngine.py:340-346 | a move neither creates, destroys nor duplicates a card |
| `Master.FailedMoveChangesNothing` | GameEngine.py:341-344 | when the removal raises, the destination and every other zone are untouched |
| `Master.MovesConserveCards` | GameEngine.py:340-346 | any sequence of move requests, failed ones included, keeps the multiset of cards on the table |
| `Master.AppendEach` | GameEngine.py:185-186 | the `add_card` loop appends the cards in order to one zone and leaves the others |
| `Master.AppendEachAdds` | GameEngine.py:185-186 | the loop adds exactly those cards to the table |
| `Master.PopCardAll` | GameEngine.py:184-187 | every source card is appended to the destination in source order and the source is left empty |
| `Master.PopCardAllConserves` | GameEngine.py:184-187 | `pop_card_all` keeps the multiset of cards on the table |
| `Master.Deal` | GameEngine.py:315-318 | dealing `n` cards moves the deck's top min(n, deck size) cards, in order, to the back of the destination and leaves every other zone; it raises exactly when the deck holds fewer than `n`, with the whole deck then already moved |
| `Master.DealLoop` | GameEngine.py:315-318 | the card-at-a-time `move_crad` loop gives the same table and the same exception as `Deal`, for every table and every `n` |
| `Master.DealStep` | GameEngine.py:315-318 | moving the top card and then dealing n − 1 is dealing n |
| `Master.DealLoopConserves` | GameEngine.py:315-318 | dealing keeps the multiset of cards on the table, also when it raises part-way |
| `Master.DealConserves` | GameEngine.py:315-318 | the split-at-once deal keeps the multiset of cards on the table, also when it raises |
| `Master.Regather` | GameEngine.py:306-313 | a restart puts every zone's cards at the back of the deck, Field first, and empties the other zones |
| `Master.RegatherConserves` | GameEngine.py:306-313 | regathering keeps exactly the cards that were on the table |
| `Master.MakeEach` | GameEngine.py:303-305 | the `enumerate` loop makes at most one card per entry |
| `Master.MakeEachAt` | GameEngine.py:303-305 | card k is what the maker gives for entry k with index `from + k` |
| `Master.MakeEachStop` | GameEngine.py:303-305 | the loop stops only at an entry the maker rejects |
| `Master.MakeCardsMeaning` | GameEngine.py:303-305 | card k of a first start is `Card(k, ids[k])`, and the entry after the last card made, if any, cannot be made |
| `Master.MakeCardsComplete` | GameEngine.py:303-305 | a first start makes a card of every entry exactly when every entry can be made |
| `Master.Gathered` | GameEngine.py:297-313 | the counter is reset and the table marked started in every case; a first start clears every zone and puts the cards made in the deck, raising when an entry cannot be made; a restart regathers every card into the deck |
| `Master.GatheredShape` | GameEngine.py:299-313 | after gathering, raised or not, every card is in the deck: the table's own on a restart, the ones made on a first start |
| `Master.OpeningDeal` | GameEngine.py:314-318 | the shuffled deck's first cards, up to 7, go to the hand and the next, up to 6, to the side pile, the rest stay; it raises exactly when fewer than 13 cards were gathered, leaving what was dealt where it went |
| `Master.HandThenSide` | GameEngine.py:315-318 | the two deals in a row give the hand the top min(7, n) cards of an n-card deck and the side pile the next min(6, n − hand) cards, and raise exactly when the deck held fewer than 13 |
| `Master.OpeningDealKeepsCards` | GameEngine.py:314-318 | shuffling and dealing keep the multiset of cards, also when the deal raises |
| `Master.Start` | GameEngine.py:296-318 | a start completes exactly when the cards can be made and at least 13 are gathered; the error names the cause; raised or not, the table is left started with the counter at 0 |
| `Master.StartShape` | GameEngine.py:296-318 | once the cards are gathered: up to 7 in hand, up to 6 in the side pile, the rest in the deck, the other zones empty, the counter at 0 |
| `Master.OpeningDealOnEmpty` | GameEngine.py:314-318 | dealing from a table whose cards are all in the deck gives hand, side pile and deck sizes min(7, n), min(6, n − hand) and the rest, and leaves the other zones empty |
| `Master.StartKeepsCards` | GameEngine.py:296-318 | raised or not, a restart keeps the table's cards and a first start holds exactly the cards it made |
| `Master.RestartDeals` | GameEngine.py:306-318 | restarting a 60-card table always succeeds, deals 47/7/6 and keeps the same cards |
| `Master.FirstStartDealsEachCardOnce` | GameEngine.py:299-318 | a first start on a 60-entry list whose cards can all be made deals 47/7/6, and cards id_0 .. id_59 are each on the table exactly once |
| `Master.FailedFirstStart` | GameEngine.py:299-305 | a first start with an entry that cannot be made raises with the table marked started, the cards made before that entry in the deck and every other zone empty |
| `Master.RetryAfterFailedFirstStart` | GameEngine.py:299-318 | starting again after such a failure takes the restart branch with only those cards, and the deal completes exactly when there are at least 13 |
| `Master.End` | GameEngine.py:334-338 | `end` marks the table as not started and leaves every card where it was |
| `Master.EndThenStartIsFresh` | GameEngine.py:286-305 | after `end` the next start makes all cards afresh, exactly as a start on an empty table |
| `Master.FieldStatUpdate` | GameEngine.py:386-389 | the status key is applied to the first Field card with the selected id; it raises exactly when the Field has no such card |
| `Master.FieldToggleTwice` | GameEngine.py:386-389 | toggling a flag of a Field card twice restores the whole table |
| `DeckList.SaveText` | GameEngine.py:77-81 | the saved text is the ids and then the code, joined with newlines, with no trailing newline |
| `DeckList.LoadLocalAsWritten` | GameEngine.py:46-52 | as written: the name is the last path segment without ".txt", the code is the last line of the text-mode reading, and the list is exactly the first min(60, number of lines) lines, the code line included when there are 60 lines or fewer |
| `DeckList.LoadLocal` | GameEngine.py:46-52 | corrected reading: as above, except that the list is exactly the first min(60, number of lines − 1) lines, so never the code line |
| `DeckList.SavedLines` | GameEngine.py:46-81 | when no id and not the code holds '\n' or '\r', the lines `load_local` reads from a saved file are the ids followed by the code |
| `DeckList.ReturnSplitsId` | GameEngine.py:46-81 | an id saved with a lone '\r' inside is read back as two ids, because the text-mode read turns the '\r' into a line break |
| `DeckList.FileNameOfPath` | GameEngine.py:48 | the deck name of "dir/stem.txt" is the stem |
| `DeckList.LoadSaved` | GameEngine.py:46-81 | loading a saved deck of at most 60 ids from "dir/stem.txt" gives back the ids, the code and the stem, when the stem has no '/' or '.' and no id and not the code holds '\n' or '\r' |
| `DeckList.LoadSavedAsWritten` | GameEngine.py:46-81 | for the 60-id files the program writes, the code as written also gives back ids, code and stem, under the same conditions |
| `DeckList.FiftyNineIdsPassCheck` | GameEngine.py:50-75 | as written, 59 ids and a code are read as 60 cards and pass the check; the corrected reading keeps the 59 ids and fails it |
| `DeckList.LoadOnline` | GameEngine.py:54-69 | the list is what was fetched; the check passes exactly for 60 ids, and only then do the name and code become the deck id |
| `DeckList.LoadOnlineFromPage` | GameEngine.py:56-69 | fed from a deck page, `load_online` either takes 60 ids with the deck id or ends up empty |
| `Settings.Geometry` | Setting.py:43-47 | the geometry text splits at 'x' into the width and the rest, and the rest splits at '+' into height, x and y, each the decimal text of its number |
| `Settings.HexStr` | Setting.py:208 | `format(n, "x")` is one or more lower-case hexadecimal digits |
| `Settings.HexStrOfChannel` | Setting.py:208 | a channel below 16 prints as one digit, any other as its two zero-padded digits |
| `Settings.HexPair` | Setting.py:207 | two characters read as a channel when both are hex digits, either case, and the value is below 256; otherwise it raises |
| `Settings.HexPairOfHex2` | Setting.py:207 | reading two padded hex digits gives back the channel |
| `Settings.Channels` | Setting.py:206-207 | the first six characters give three channels exactly when all six are hex digits |
| `Settings.Inverted` | Setting.py:208-209 | the inverted colour is '#' followed by 3 to 6 hex digits |
| `Settings.ReverseColor` | Setting.py:205-209 | after removing every '#', fewer than 6 characters raise, non-hex characters raise, otherwise the result is '#' and 3 to 6 hex digits |
| `Settings.ReverseColorOfRgb` | Setting.py:205-209 | on "#rrggbb" each channel x becomes 255-x, unpadded |
| `Settings.ReverseTwice` | Setting.py:205-209 | inverting twice gives the colour back exactly when every channel lies in 16..239 |
| `Settings.SecondInversionFails` | Setting.py:206-207 | once a channel above 239 collapses to one digit, a second inversion has fewer than 6 characters and fails |
| `Settings.SecondInversion` | Setting.py:205-209 | with every channel in 16..239 the second inversion restores the padded colour |
| `Settings.CanvasHoldsCards` | Setting.py:55-58 | the canvas width fits exactly `col + 1` half cards, and the height is `row` card heights |
| `Settings.Repeat` | Setting.py:198-199 | `range(n)` appends the id `n` times, and nothing for `n <= 0` |
| `Settings.ExpandSegment` | Setting.py:197-199 | a segment expands only if it has exactly three '_' fields and an integer middle field, and every id produced is its first field |
| `Settings.ExpandSegments` | Setting.py:196-199 | a value expands exactly when every segment does; the error is a bad unpack or a bad int |
| `Settings.ExpandAll` | Setting.py:194-199 | the page's values expand exactly when every value does, and a failure is a bad unpack or a bad int |
| `Settings.DeckIds` | Setting.py:193-203 | the ids are returned only when there are exactly 60 of them, otherwise the list is empty; malformed segments raise |
| `Settings.ExpandEncodedSegment` | Setting.py:197-199 | a segment "id_count_x" expands to `count` copies of `id` |
| `Settings.ExpandEncodedSegments` | Setting.py:196-199 | encoded segments expand to each id repeated its count, in order |
| `Settings.ExpandEncode` | Setting.py:194-199 | a hidden value built from entries expands back to each id repeated its count, in order |
| `Settings.DeckImageGrid` | Setting.py:113-123 | nothing is placed unless the list has 60 entries; card i goes at (w·(i mod 12), h·(i div 12)) |
| `Settings.GridDistinct` | Setting.py:115-123 | with positive cell sizes no two cards share a corner |
| `Settings.GridFillsPicture` | Setting.py:113-123 | all 60 corners lie inside the 12w × 5h picture, and every one of its 60 cells receives a card |
| `Application.Tick` | Application.py:144-147 | a tick adds exactly one second, and a valid clock stays valid |
| `Application.TicksCount` | Application.py:135-147 | after n ticks from (0, 0) the clock reads (n div 60, n mod 60), so seconds stay within 0..59 |
| `Application.ParseGeometry` | Application.py:81-85 | the string splits into four fields exactly when it has one 'x' and two '+' after it, and the fields reassemble into the string |
| `Application.GeometryRoundTrip` | Application.py:81-85 | parsing the settings geometry and reading each field as an int gives back width, height, x and y, negative values included |
| `Application.ParentDir` | Application.py:351-353 | moving up never leaves an empty directory |
| `Application.Select` | Application.py:335-342 | a listed name opens a folder exactly when it carries the folder mark; otherwise the deck file is loaded |
| `Application.EnterThenParent` | Application.py:335-353 | choosing "□ " + folder, for a folder name with no '/' and no '□', enters "dir/folder", and moving up from there returns to a non-empty `dir` |
| `Application.SelectListedFolder` | Application.py:335-353 | choosing a folder as the listbox shows it (marked, with ".txt" removed, as at Application.py:288) enters "dir/folder" when the name has no '/', '□' or '.', and moving up returns to `dir` |
| `Application.ParentOfTopLevel` | Application.py:351-353 | moving up from a top-level name gives the "Deck" folder |
| `Application.SelectDeckFile` | Application.py:340-342 | choosing a deck shown without ".txt" loads "dir/stem.txt", and the deck is named after the stem |
| `Application.ShownSome` | Application.py:245-246 | an entry other than "blank.txt" is shown under a label exactly when that label's count is positive |
| `Application.ShownMembers` | Application.py:245-246 | a list holding each label as often as it is shown lists every entry but "blank.txt" and nothing else |
| `Application.Labels` | Application.py:245-246 | each label occurs exactly as many times as there are entries other than "blank.txt" shown under it, folders with the mark; so every such entry is listed and nothing else is |
| `Application.BeforeTotal` | Application.py:247 | the listing key orders any two different names |
| `Application.BeforeAsymmetric` | Application.py:247 | the listing key never puts two names before each other |
| `Application.BeforeTransitive` | Application.py:247 | the listing key is transitive |
| `Application.SortLabels` | Application.py:247 | the sort returns a permutation ordered by the key |
| `Application.SortedUnique` | Application.py:247 | only one ordered arrangement of the same names exists, so the listing is determined |
| `Application.FileListing` | Application.py:244-247 | the listing is an ordered permutation of the labels, holds each label as many times as entries other than "blank.txt" are shown under it, and never shows "blank.txt" |
| `Application.FoldersFirst` | Application.py:247 | in the listing every folder comes before every file |
| `Application.AppStart` | Application.py:117-123 | a list of the wrong size changes nothing; otherwise the table starts as `Master.start` does and the deck list is kept; the timer restarts at (0, 1) only when the table's start did not raise, and otherwise keeps its time |
| `Application.AppStartDeals` | Application.py:117-121 | with a 60-card list whose cards can all be made, or a table that already holds 60 cards, the start raises nothing and shows 47 in the deck, 7 in hand, 6 in the side pile, and the other zones empty |
| `Application.AppEnd` | Application.py:125-129 | `end` stops the timer without changing its time and marks the table as not started, every card staying where it was |
| `Application.AppEndThenStart` | Application.py:117-129 | starting after `end` makes the cards afresh from the deck list, as the very first start does |

## Left out

- The tkinter user interface is not modelled. This covers canvases, windows and menus, the event handlers, tag lookup, and the `update`/`canvas_update` redraws. All of it is side effects on the screen.
- PIL image building (`_update_image_tk`, `ImageContainer`) is not modelled. It is a foreign library. Only the grid arithmetic of `create_deck_image` is modelled.
- Network and HTML scraping in `create_deckid_list` and `ImageContainer.get` are not modelled. The expansion starts from the hidden values already extracted from the page.
- File-system and configuration work (`open`, `os.listdir`, `configparser`, `save_ini`) is not modelled. Files are strings, a directory listing is a sequence of entries, and the card image file name is a function parameter. Of text-mode file handling only the newline translation on reading is modelled: on writing, '\n' is taken to be written as '\n', and the UTF-8 encoding is not modelled. Where text mode writes "\r\n" instead, the read turns it back into '\n' (`Strings.UniversalNewlinesCrLf`).
- `random.shuffle` is Python's Fisher–Yates loop over caller-supplied draws in place of `randbelow`.
- The coin and shuffle animations, `random.random` and the `after` scheduling of the timer are time-driven display effects and are not modelled. Only the tick itself is modelled.
- Undo/redo and front insertion are not modelled: neither exists in the code (`turn_minus` and `turn_plus` are never defined). Field positions exist only as canvas coordinates.
- The enemy window (a second table started alongside) is not modelled. It repeats `Master.start` on another table.
- `Master.deck_file_save`, which `load_online` calls through a save dialog, is not modelled. Only the `CardList` it would write is modelled, by `DeckList.SaveText`.
- `Master.start`'s marker resets and hand window are not modelled, since they are display state. The marker reset itself is `Cards.MarkerReset`.
- `Master.end` closes the zone windows and moves the coin; only its reset of the started flag is modelled, by `Master.End`.
- `Setting.window_size_set` is not part of this model.
- Strings.ParseInt: accepts only an optional '-' and ASCII digits. Python's `int()` also takes surrounding whitespace, a '+' sign, a single '_' between two digits, and the decimal digits of other Unicode scripts (`int("３") == 3`). The model reads those as errors.
- Settings.ReverseColor: `int(x, 16)` also takes a two-character channel that is a '+' or '-' sign followed by a digit, a digit with a space before or after it, or a Unicode decimal digit of another script (`int("３f", 16) == 63`). The model reads those as errors. A '_' cannot occur in a two-character channel that Python accepts, since it must stand between two digits.
- DeckList.LoadSaved (and `DeckList.LoadSavedAsWritten`, `DeckList.SavedLines`): the round trip is promised only for ids and a code holding neither '\n' nor '\r'. The text-mode read turns a '\r' into a line break, so such an id comes back split, as `DeckList.ReturnSplitsId` shows.
- Application.SelectListedFolder: promised only for folder names without '.'. The listbox removes every ".txt" from folder names too, so choosing a folder whose name holds ".txt" opens a path without it; no lemma covers that case.
- Master.PopCardAll: requires distinct source and destination. The program never calls `pop_card_all` on one zone with itself, where Python's loop would not terminate.

## Findings

| source | as written | input that shows it | evidently intended | confidence | as-written member | corrected member |
|---|---|---|---|---|---|---|
| GameEngine.py:50-52 | `load_local` takes the first 60 lines as the card list and the last line as the deck code, so a file with fewer than 60 ids has its code line read as a card | a file of 59 card ids followed by a code line: the list becomes the 59 ids plus the code, 60 entries, and passes `check` | only the lines before the code line are cards, so a 59-card file fails `check` | not executed | `DeckList.LoadLocalAsWritten`, shown by `DeckList.FiftyNineIdsPassCheck` | `DeckList.LoadLocal`, proved by `DeckList.LoadSaved` |

=== FILE: application.dfy ===
/** The state and string logic of Application.py: the match timer, the
    parsing of the window geometry, the navigation through deck folders,
    the order of the deck-file listing, and the gate in front of
    `Master.start`.

    The directory listing is given as a sequence of entries (name and
    whether it is a folder); windows, widgets and the `after` scheduling are
    not modelled.
 */
module Application {
  import opened Outcomes
  import opened Strings
  import opened Settings
  import opened DeckList
  import opened Master

  /* ---------------------------------------------------------------------
     _timer / _start_timer
     --------------------------------------------------------------------- */

  /** Minutes and seconds, as the `time` tuple. */
  type Clock = (int, int)

  function Seconds(t: Clock): int {
    60 * t.0 + t.1
  }

  predicate ValidClock(t: Clock) {
    t.0 >= 0 && 0 <= t.1 < 60
  }

  /** `_timer`: one more second; reaching 60 seconds carries into a minute. */
  function Tick(t: Clock): (r: Clock)
    ensures Seconds(r) == Seconds(t) + 1
    ensures ValidClock(t) ==> ValidClock(r)
  {
    var next := (t.0, t.1 + 1);
    if next.1 == 60 then (next.0 + 1, 0) else next
  }

  /** `n` calls of `_timer`. */
  function Ticks(t: Clock, n: nat): Clock {
    if n == 0 then t else Tick(Ticks(t, n - 1))
  }

  /** After `n` ticks a valid clock has advanced by `n` seconds and is still
      valid; from (0, 0) it reads exactly `n` divided into minutes and
      seconds. */
  lemma {:induction false} TicksCount(t: Clock, n: nat)
    requires ValidClock(t)
    ensures Seconds(Ticks(t, n)) == Seconds(t) + n
    ensures ValidClock(Ticks(t, n))
    ensures t == (0, 0) ==> Ticks(t, n) == (n / 60, n % 60)
  {
    if n > 0 {
      TicksCount(t, n - 1);
      var u := Ticks(t, n);
      assert Seconds(u) == Seconds(t) + n;
      if t == (0, 0) {
        assert 60 * u.0 + u.1 == n && 0 <= u.1 < 60;
        DivModUnique(n, u.0, u.1);
      }
    }
  }

  lemma DivModUnique(n: nat, q: int, r: int)
    requires 60 * q + r == n && 0 <= r < 60
    ensures q == n / 60 && r == n % 60
  {
  }

  /** `_start_timer`: the clock restarts at (0, 0) and ticks once at once. */
  const TimerStart: Clock := Tick((0, 0))

  /* ---------------------------------------------------------------------
     window_resized
     --------------------------------------------------------------------- */

  /** `window_resized`: "WxH+X+Y" unpacked into its four text fields; a
      geometry with the wrong number of 'x' or '+' fields raises. */
  function ParseGeometry(g: string): (r: Result<(string, string, string, string)>)
    ensures r.Success? <==> |Split(g, 'x')| == 2 && |Split(Split(g, 'x')[1], '+')| == 3
    ensures r.Failure? ==> r.error == BadUnpack
    ensures r.Success? ==>
      var (w, h, x, y) := r.value;
      && g == w + "x" + h + "+" + x + "+" + y
      && 'x' !in w && '+' !in h && '+' !in x && '+' !in y
  {
    var halves := Split(g, 'x');
    if |halves| != 2 then Failure(BadUnpack)
    else
      var rest := Split(halves[1], '+');
      if |rest| != 3 then Failure(BadUnpack)
      else
        Reassemble(g, halves, rest);
        SplitPiecesFree(g, 'x');
        SplitPiecesFree(halves[1], '+');
        Success((halves[0], rest[0], rest[1], rest[2]))
  }

  lemma Reassemble(g: string, halves: seq<string>, rest: seq<string>)
    requires halves == Split(g, 'x') && |halves| == 2
    requires rest == Split(halves[1], '+') && |rest| == 3
    ensures g == halves[0] + "x" + rest[0] + "+" + rest[1] + "+" + rest[2]
  {
    JoinSplit(g, 'x');
    JoinSplit(halves[1], '+');
    JoinTwo(halves, 'x');
    JoinThree(rest, '+');
  }

  /** Parsing the geometry string of the settings gives back the four
      numbers. */
  lemma GeometryRoundTrip(width: int, height: int, x: int, y: int)
    ensures ParseGeometry(Geometry(width, height, x, y))
         == Success((IntStr(width), IntStr(height), IntStr(x), IntStr(y)))
    ensures ParseInt(IntStr(width)) == Success(width) && ParseInt(IntStr(height)) == Success(height)
    ensures ParseInt(IntStr(x)) == Success(x) && ParseInt(IntStr(y)) == Success(y)
  {
    ParseIntStr(width);
    ParseIntStr(height);
    ParseIntStr(x);
    ParseIntStr(y);
  }

  /* ---------------------------------------------------------------------
     Deck folders: listbox_current / parent_folder_move
     --------------------------------------------------------------------- */

  const TopDir: string := "Deck"

  /** The mark the listing puts before a folder name. */
  const FolderMark: string := "□ "

  /** `parent_folder_move`: drop the last '/' segment; nothing left means
      the top folder. */
  function ParentDir(dir: string): (r: string)
    ensures r != ""
  {
    var parts := Split(dir, '/');
    var up := Join(parts[..|parts| - 1], '/');
    if up == "" then TopDir else up
  }

  datatype Selection = OpenFolder(dir: string) | OpenDeck(path: string)

  /** `listbox_current` on a shown name: a name holding the folder mark
      enters that folder, any other name loads "dir/name.txt". */
  function Select(dir: string, name: string): (r: Selection)
    ensures r.OpenFolder? <==> '□' in name
  {
    if '□' in name then OpenFolder(dir + "/" + RemoveAll(name, FolderMark))
    else OpenDeck(dir + "/" + name + ".txt")
  }

  /** Entering a folder and moving up again returns to where one was. */
  lemma EnterThenParent(dir: string, folder: string)
    requires dir != ""
    requires '/' !in folder && '□' !in folder
    ensures Select(dir, FolderMark + folder) == OpenFolder(dir + "/" + folder)
    ensures ParentDir(dir + "/" + folder) == dir
  {
    RemoveAllLeading(folder, FolderMark);
    RemoveAllAbsent(folder, FolderMark);
    assert (FolderMark + folder)[0] == '□';
    assert dir + "/" + folder == dir + ['/'] + folder;
    SplitAppend(dir, folder, '/');
    SplitNoSep(folder, '/');
    var parts := Split(dir + "/" + folder, '/');
    assert parts[..|parts| - 1] == Split(dir, '/');
    JoinSplit(dir, '/');
  }

  /** A folder is listed as its marked name with every ".txt" removed; when
      the name holds no '.', choosing that listed name enters the folder. */
  lemma SelectListedFolder(dir: string, folder: string)
    requires dir != ""
    requires '/' !in folder && '□' !in folder && '.' !in folder
    ensures Select(dir, RemoveAll(FolderMark + folder, ".txt")) == OpenFolder(dir + "/" + folder)
    ensures ParentDir(dir + "/" + folder) == dir
  {
    assert '.' !in FolderMark + folder by {
      assert forall i :: 0 <= i < |FolderMark| ==> (FolderMark + folder)[i] != '.';
      assert forall i :: |FolderMark| <= i < |FolderMark + folder| ==> (FolderMark + folder)[i] == folder[i - |FolderMark|];
    }
    RemoveAllAbsent(FolderMark + folder, ".txt");
    EnterThenParent(dir, folder);
  }

  /** Moving up from a folder directly under the top gives the top folder. */
  lemma ParentOfTopLevel(dir: string)
    requires '/' !in dir
    ensures ParentDir(dir) == TopDir
  {
    SplitNoSep(dir, '/');
  }

  /** Choosing a deck file shown without its ".txt" loads that file, under
      the name the file had. */
  lemma SelectDeckFile(dir: string, stem: string)
    requires '/' !in stem && '.' !in stem && '□' !in stem
    ensures Select(dir, RemoveAll(stem + ".txt", ".txt")) == OpenDeck(dir + "/" + stem + ".txt")
    ensures FileName(dir + "/" + stem + ".txt") == stem
  {
    RemoveAllTrailing(stem, ".txt");
    FileNameOfPath(dir, stem);
  }

  /* ---------------------------------------------------------------------
     filename_list_create
     --------------------------------------------------------------------- */

  datatype DirEntry = DirEntry(name: string, isDir: bool)

  /** The shown form of an entry: folders carry the mark. */
  function Label(e: DirEntry): string {
    if e.isDir then FolderMark + e.name else e.name
  }

  /** How many entries other than "blank.txt" have `l` as their label. */
  function Shown(es: seq<DirEntry>, l: string): nat {
    if |es| == 0 then 0
    else (if es[0].name != "blank.txt" && Label(es[0]) == l then 1 else 0) + Shown(es[1..], l)
  }

  /** An entry other than "blank.txt" is shown as `l` exactly when the
      count is positive. */
  lemma {:induction false} ShownSome(es: seq<DirEntry>, l: string)
    ensures Shown(es, l) > 0
      <==> exists k :: 0 <= k < |es| && es[k].name != "blank.txt" && Label(es[k]) == l
  {
    if |es| > 0 {
      ShownSome(es[1..], l);
      if Shown(es[1..], l) > 0 {
        var k :| 0 <= k < |es| - 1 && es[1..][k].name != "blank.txt" && Label(es[1..][k]) == l;
        assert es[k + 1] == es[1..][k];
      }
      forall k | 1 <= k < |es| && es[k].name != "blank.txt" && Label(es[k]) == l
        ensures Shown(es[1..], l) > 0
      {
        assert es[1..][k - 1] == es[k];
      }
    }
  }

  /** A list holding each label as often as it is shown lists every entry
      but "blank.txt", and nothing else. */
  lemma ShownMembers(es: seq<DirEntry>, r: seq<string>)
    requires forall l :: multiset(r)[l] == Shown(es, l)
    ensures forall k :: 0 <= k < |es| && es[k].name != "blank.txt" ==> Label(es[k]) in r
    ensures forall s :: s in r ==> exists k :: 0 <= k < |es| && es[k].name != "blank.txt" && s == Label(es[k])
  {
    forall k | 0 <= k < |es| && es[k].name != "blank.txt"
      ensures Label(es[k]) in r
    {
      ShownSome(es, Label(es[k]));
    }
    forall s | s in r
      ensures exists k :: 0 <= k < |es| && es[k].name != "blank.txt" && s == Label(es[k])
    {
      ShownSome(es, s);
    }
  }

  /** Every entry but "blank.txt", labelled, in listing order. */
  function Labels(es: seq<DirEntry>): (r: seq<string>)
    ensures "blank.txt" !in r
    ensures forall l :: multiset(r)[l] == Shown(es, l)
    ensures forall k :: 0 <= k < |es| && es[k].name != "blank.txt" ==> Label(es[k]) in r
    ensures forall s :: s in r ==> exists k :: 0 <= k < |es| && es[k].name != "blank.txt" && s == Label(es[k])
  {
    if |es| == 0 then []
    else
      var rest := Labels(es[1..]);
      var r := if es[0].name == "blank.txt" then rest else [Label(es[0])] + rest;
      assert "blank.txt" !in r by {
        if es[0].isDir {
          assert Label(es[0])[0] == '□';
        }
      }
      assert forall l :: multiset(r)[l] == Shown(es, l);
      ShownMembers(es, r);
      r
  }

  predicate IsFolderLabel(s: string) {
    |s| > 0 && s[0] == '□'
  }

  /** The sort key `(not x.startswith("□"), x)`: folders first, then by
      Python's string order. */
  predicate Before(a: string, b: string) {
    (IsFolderLabel(a) && !IsFolderLabel(b))
    || (IsFolderLabel(a) == IsFolderLabel(b) && LexLess(a, b))
  }

  lemma BeforeTotal(a: string, b: string)
    requires a != b
    ensures Before(a, b) || Before(b, a)
  {
    if IsFolderLabel(a) == IsFolderLabel(b) {
      LexLessTotal(a, b);
    }
  }

  lemma BeforeAsymmetric(a: string, b: string)
    requires Before(a, b)
    ensures !Before(b, a)
  {
    if IsFolderLabel(a) == IsFolderLabel(b) {
      LexLessAsymmetric(a, b);
    }
  }

  lemma BeforeTransitive(a: string, b: string, c: string)
    requires Before(a, b) && Before(b, c)
    ensures Before(a, c)
  {
    if IsFolderLabel(a) == IsFolderLabel(b) && IsFolderLabel(b) == IsFolderLabel(c) {
      LexLessTransitive(a, b, c);
    }
  }

  predicate Sorted(s: seq<string>) {
    forall i, j :: 0 <= i < j < |s| ==> !Before(s[j], s[i])
  }

  /** One insertion step: `x` goes before the first element not before it. */
  function Insert(x: string, s: seq<string>): (r: seq<string>)
    ensures multiset(r) == multiset(s) + multiset{x}
    ensures |r| == |s| + 1
  {
    if |s| == 0 then [x]
    else if Before(s[0], x) then
      assert s == [s[0]] + s[1..];
      [s[0]] + Insert(x, s[1..])
    else [x] + s
  }

  /** "Not after" is transitive. */
  lemma NotBeforeTransitive(a: string, b: string, c: string)
    requires !Before(b, a) && !Before(c, b)
    ensures !Before(c, a)
  {
    if a != b && b != c {
      BeforeTotal(a, b);
      BeforeTotal(b, c);
      BeforeTransitive(a, b, c);
      BeforeAsymmetric(a, c);
    }
  }

  lemma {:induction false} InsertSorted(x: string, s: seq<string>)
    requires Sorted(s)
    ensures Sorted(Insert(x, s))
  {
    if |s| > 0 {
      var r := Insert(x, s);
      if Before(s[0], x) {
        var tail := Insert(x, s[1..]);
        InsertSorted(x, s[1..]);
        assert r == [s[0]] + tail;
        forall j | 0 < j < |r|
          ensures !Before(r[j], s[0])
        {
          assert r[j] == tail[j - 1];
          assert r[j] in multiset(tail);
          if r[j] == x {
            BeforeAsymmetric(s[0], x);
          } else {
            assert r[j] in multiset(s[1..]);
            var k :| 0 <= k < |s[1..]| && s[1..][k] == r[j];
            assert s[k + 1] == r[j];
          }
        }
      } else {
        assert r == [x] + s;
        forall j | 0 < j < |r|
          ensures !Before(r[j], x)
        {
          assert r[j] == s[j - 1];
          if j > 1 {
            NotBeforeTransitive(x, s[0], s[j - 1]);
          }
        }
      }
    }
  }

  /** Insertion sort under the listing's key. */
  function SortLabels(s: seq<string>): (r: seq<string>)
    ensures multiset(r) == multiset(s)
    ensures Sorted(r)
  {
    if |s| == 0 then []
    else
      assert s == [s[0]] + s[1..];
      InsertSorted(s[0], SortLabels(s[1..]));
      Insert(s[0], SortLabels(s[1..]))
  }

  /** There is only one sorted arrangement of a multiset of labels, so the
      insertion sort and Python's `sorted` list the same thing. */
  lemma {:induction false} SortedUnique(a: seq<string>, b: seq<string>)
    requires Sorted(a) && Sorted(b) && multiset(a) == multiset(b)
    ensures a == b
  {
    if |a| == 0 {
      assert |multiset(b)| == 0;
    } else {
      assert |b| == |multiset(b)| == |multiset(a)| == |a|;
      SameHead(a, b);
      assert multiset(a) == multiset{a[0]} + multiset(a[1..]) by {
        assert a == [a[0]] + a[1..];
      }
      assert multiset(b) == multiset{b[0]} + multiset(b[1..]) by {
        assert b == [b[0]] + b[1..];
      }
      assert multiset(a[1..]) == multiset(a) - multiset{a[0]};
      assert multiset(b[1..]) == multiset(b) - multiset{b[0]};
      SortedTail(a);
      SortedTail(b);
      SortedUnique(a[1..], b[1..]);
      assert a == [a[0]] + a[1..] && b == [b[0]] + b[1..];
    }
  }

  lemma SortedTail(s: seq<string>)
    requires Sorted(s) && |s| > 0
    ensures Sorted(s[1..])
  {
    forall i, j | 0 <= i < j < |s| - 1
      ensures !Before(s[1..][j], s[1..][i])
    {
      assert s[1..][j] == s[j + 1] && s[1..][i] == s[i + 1];
    }
  }

  /** Two sorted arrangements of the same labels start alike. */
  lemma SameHead(a: seq<string>, b: seq<string>)
    requires Sorted(a) && Sorted(b) && multiset(a) == multiset(b)
    requires |a| > 0 && |b| > 0
    ensures a[0] == b[0]
  {
    assert a[0] in multiset(b) && b[0] in multiset(a);
    var j :| 0 <= j < |b| && b[j] == a[0];
    var k :| 0 <= k < |a| && a[k] == b[0];
    assert !Before(a[0], b[0]) by {
      if j > 0 {
        assert !Before(b[j], b[0]);
      } else {
        LexLessIrreflexive(a[0]);
      }
    }
    assert !Before(b[0], a[0]) by {
      if k > 0 {
        assert !Before(a[k], a[0]);
      } else {
        LexLessIrreflexive(b[0]);
      }
    }
    if a[0] != b[0] {
      BeforeTotal(a[0], b[0]);
    }
  }

  /** `filename_list_create`: the entries but "blank.txt", folders marked,
      folders first and each group in string order. */
  function FileListing(es: seq<DirEntry>): (r: seq<string>)
    ensures multiset(r) == multiset(Labels(es))
    ensures forall l :: multiset(r)[l] == Shown(es, l)
    ensures Sorted(r)
    ensures "blank.txt" !in r
  {
    var r := SortLabels(Labels(es));
    assert "blank.txt" !in multiset(Labels(es));
    r
  }

  /** In a sorted listing every marked name comes before every unmarked one. */
  lemma FoldersFirst(s: seq<string>)
    requires Sorted(s)
    ensures forall i, j :: 0 <= i < j < |s| && IsFolderLabel(s[j]) ==> IsFolderLabel(s[i])
  {
  }

  /* ---------------------------------------------------------------------
     start
     --------------------------------------------------------------------- */

  datatype App = App(engine: Table, cards: CardList, time: Clock)

  /** What `Application.start` does once the table's start has returned or
      raised: the timer is started only when the table started cleanly. */
  function Launch(a: App, s: Outcome<Table>): (r: Outcome<App>)
    ensures r.raised == s.raised && r.state.engine == s.state && r.state.cards == a.cards
    ensures r.state.time == (if s.raised.None? then (0, 1) else a.time)
  {
    if s.raised.None? then Outcome(App(s.state, a.cards, TimerStart), None)
    else Outcome(a.(engine := s.state), s.raised)
  }

  /** `Application.start`: with a 60-card list, start the table and then
      the timer; otherwise nothing changes.  When the table's start raises,
      the timer is not started and the table stays as the exception left
      it. */
  function AppStart(a: App, fileOf: string -> string, draws: seq<nat>): (r: Outcome<App>)
    ensures !Check(a.cards) ==> r == Outcome(a, None)
    ensures Check(a.cards) ==> var s := Start(a.engine, a.cards.list, fileOf, draws);
      && r.raised == s.raised && r.state.engine == s.state
      && r.state.time == (if s.raised.None? then (0, 1) else a.time)
    ensures r.state.cards == a.cards
  {
    if !Check(a.cards) then Outcome(a, None)
    else Launch(a, Start(a.engine, a.cards.list, fileOf, draws))
  }

  /** With a 60-card list whose cards can all be made (or a table that
      already holds 60), the match starts and shows 7 cards in hand, 6 in
      the side pile, and the other 47 in the deck. */
  lemma AppStartDeals(a: App, fileOf: string -> string, draws: seq<nat>)
    requires Check(a.cards)
    requires a.engine.started ==> |AllCards(a.engine)| == DeckSize
    requires !a.engine.started ==> |MakeCards(a.cards.list, fileOf, 0)| == DeckSize
    ensures AppStart(a, fileOf, draws).raised.None?
    ensures var t := AppStart(a, fileOf, draws).state.engine;
      |Get(t, Deck)| == 47 && |Get(t, Hand)| == 7 && |Get(t, Side)| == 6
      && Get(t, Field) == [] && Get(t, Temp) == [] && Get(t, Trash) == [] && Get(t, Lost) == []
  {
    assert Gathered(a.engine, a.cards.list, fileOf).raised.None?;
    StartShape(a.engine, a.cards.list, fileOf, draws);
  }

  /** `Application.end`: stop the timer and end the table.  The clock keeps
      the time it shows; the cards stay where they are. */
  function AppEnd(a: App): (r: App)
    ensures !r.engine.started
    ensures forall y :: Get(r.engine, y) == Get(a.engine, y)
    ensures r.cards == a.cards && r.time == a.time
  {
    a.(engine := End(a.engine))
  }

  /** After `end`, starting again makes a new set of cards from the deck
      list, exactly as the very first start did. */
  lemma AppEndThenStart(a: App, fileOf: string -> string, draws: seq<nat>)
    ensures AppStart(AppEnd(a), fileOf, draws).state.engine
         == (if Check(a.cards) then Start(EmptyTable, a.cards.list, fileOf, draws).state else End(a.engine))
  {
    EndThenStartIsFresh(a.engine, a.cards.list, fileOf, draws);
  }
}

=== FILE: cards.dfy ===
/** The card token and its status (Object.py `Card`), and the on/off
    markers of the table (Object.py `CheckObject`).

    A card is created once per match from a printed-card id and an image
    file name of the form `<category>_<name>.jpg`.  Its identity is the
    string `"id_" + index`.  Only cards of the category "ポケモン" carry an
    hp counter; on all other cards `hp` is `None` for the card's whole life.
 */
module Cards {
  import opened Outcomes
  import opened Strings

  const Pokemon: string := "ポケモン"

  /** Status keys accepted by `card_stat_update`. */
  const CheckKey: string := "check"
  const Poison: string := "どく"
  const Burn: string := "やけど"
  const Asleep: string := "ねむり"
  const Paralyzed: string := "まひ"
  const Confused: string := "こんらん"

  /** The three mutually exclusive conditions. */
  predicate IsCondition(key: string) {
    key == Asleep || key == Paralyzed || key == Confused
  }

  /** What the condition slot may hold: nothing, or one condition. */
  predicate ValidCondition(slot: string) {
    slot == "" || IsCondition(slot)
  }

  datatype Card = Card(
    cardId: string,      // printed-card id, the image folder name
    id: string,          // "id_" + creation index: the token identity
    category: string,
    name: string,
    hp: Option<int>,
    check: bool,
    doku: bool,          // poisoned
    yakedo: bool,        // burned
    badStat: string,     // the condition slot
    tailFlag: bool       // shown face down
  )

  /** The hp counter is present exactly on "ポケモン" cards, and is a
      non-negative multiple of 10; the condition slot holds a valid value. */
  predicate Wellformed(c: Card) {
    && (c.hp.Some? <==> c.category == Pokemon)
    && (c.hp.Some? ==> c.hp.value >= 0 && c.hp.value % 10 == 0)
    && ValidCondition(c.badStat)
  }

  /** Every status field at its initial value. */
  predicate InitialStatus(c: Card) {
    && (c.hp.Some? ==> c.hp.value == 0)
    && !c.check && !c.doku && !c.yakedo && c.badStat == "" && !c.tailFlag
  }

  /** The identity string a card created with this index receives. */
  function IdOf(index: nat): string {
    "id_" + NatStr(index)
  }

  /** The image file name the card image cache writes (Setting.py line 93). */
  function CardFileName(category: string, name: string): string {
    category + "_" + name + ".jpg"
  }

  /** `Card(index, card_id)`: the file name minus ".jpg" must split on '_'
      into exactly a category and a name. */
  function NewCard(index: nat, cardId: string, fileName: string): (r: Result<Card>)
    ensures r.Success? <==> |Split(RemoveAll(fileName, ".jpg"), '_')| == 2
    ensures r.Failure? ==> r.error == BadUnpack
    ensures r.Success? ==>
      && r.value.id == IdOf(index)
      && r.value.cardId == cardId
      && Wellformed(r.value)
      && InitialStatus(r.value)
      && (r.value.hp == Some(0) <==> r.value.category == Pokemon)
  {
    var parts := Split(RemoveAll(fileName, ".jpg"), '_');
    if |parts| != 2 then Failure(BadUnpack)
    else
      var category := parts[0];
      Success(Card(cardId, IdOf(index), category, parts[1],
                   if category == Pokemon then Some(0) else None,
                   false, false, false, "", false))
  }

  /** A card read back from the file name the image cache wrote has the
      category and name that were written. */
  lemma NewCardFromFileName(index: nat, cardId: string, category: string, name: string)
    requires '_' !in category && '_' !in name
    requires '.' !in category && '.' !in name
    ensures NewCard(index, cardId, CardFileName(category, name)).Success?
    ensures NewCard(index, cardId, CardFileName(category, name)).value.category == category
    ensures NewCard(index, cardId, CardFileName(category, name)).value.name == name
  {
    var stem := category + "_" + name;
    assert CardFileName(category, name) == stem + ".jpg";
    assert '.' !in stem;
    RemoveAllTrailing(stem, ".jpg");
    assert stem == category + ['_'] + name;
    SplitCons(category, name, '_');
    SplitNoSep(name, '_');
  }

  /* ---------------------------------------------------------------------
     Identity and ordering (`_get_index`, `__lt__`)
     --------------------------------------------------------------------- */

  /** `_get_index`: `int(id.replace("id_", ""))`. */
  function GetIndex(c: Card): Result<int> {
    ParseInt(RemoveAll(c.id, "id_"))
  }

  /** `__lt__`: compares the indices recovered from the two ids. */
  function Less(a: Card, b: Card): Result<bool> {
    var i :- GetIndex(a);
    var j :- GetIndex(b);
    Success(i < j)
  }

  /** The index written into an id is the index read back out of it. */
  lemma GetIndexOfId(c: Card, index: nat)
    requires c.id == IdOf(index)
    ensures GetIndex(c) == Success(index)
  {
    RemoveAllLeading(NatStr(index), "id_");
    RemoveAllAbsent(NatStr(index), "id_");
    ParseIntStr(index);
  }

  /** On cards with well-formed ids, `__lt__` is exactly the order of the
      creation indices: irreflexive, and total and strict on distinct ones. */
  lemma LessIsIndexOrder(a: Card, b: Card, i: nat, j: nat)
    requires a.id == IdOf(i) && b.id == IdOf(j)
    ensures Less(a, b) == Success(i < j)
    ensures Less(b, a) == Success(j < i)
    ensures i != j ==> Less(a, b).value != Less(b, a).value
    ensures a == b ==> !Less(a, b).value
  {
    GetIndexOfId(a, i);
    GetIndexOfId(b, j);
    if a == b {
      IdOfInjective(i, j);
    }
  }

  /** Distinct indices give distinct ids. */
  lemma IdOfInjective(i: nat, j: nat)
    requires IdOf(i) == IdOf(j)
    ensures i == j
  {
    var a := Card("", IdOf(i), "", "", None, false, false, false, "", false);
    GetIndexOfId(a, i);
    GetIndexOfId(a, j);
  }

  /* ---------------------------------------------------------------------
     Status operations
     --------------------------------------------------------------------- */

  /** `hp_update`: a positive delta adds 10, any other subtracts 10 with a
      floor at 0; cards without an hp counter are left alone. */
  function HpUpdate(c: Card, delta: int): (r: Card)
    ensures r.hp.Some? <==> c.hp.Some?
    ensures r.hp.Some? && delta > 0 ==> r.hp.value == c.hp.value + 10
    ensures r.hp.Some? && delta <= 0 ==> r.hp.value == if c.hp.value >= 10 then c.hp.value - 10 else 0
    ensures r.(hp := c.hp) == c
  {
    match c.hp
    case None => c
    case Some(h) =>
      if delta > 0 then c.(hp := Some(h + 10))
      else c.(hp := Some(if h - 10 < 0 then 0 else h - 10))
  }

  /** `card_stat_update`: the flag keys toggle their flag, a condition key
      clears the slot if it already holds that condition and fills it
      otherwise, and any other key changes nothing. */
  function StatUpdate(c: Card, key: string): (r: Card)
    ensures key == CheckKey ==> r == c.(check := !c.check)
    ensures key == Poison ==> r == c.(doku := !c.doku)
    ensures key == Burn ==> r == c.(yakedo := !c.yakedo)
    ensures IsCondition(key) ==> r == c.(badStat := if c.badStat == key then "" else key)
    ensures key != CheckKey && key != Poison && key != Burn && !IsCondition(key) ==> r == c
  {
    if key == CheckKey then c.(check := !c.check)
    else if key == Poison then c.(doku := !c.doku)
    else if key == Burn then c.(yakedo := !c.yakedo)
    else if key == Asleep || key == Paralyzed || key == Confused then
      c.(badStat := if c.badStat == key then "" else key)
    else c
  }

  /** `card_reset`: back to the status of a freshly created card. */
  function CardReset(c: Card): (r: Card)
    ensures InitialStatus(r)
    ensures r.hp.Some? <==> c.hp.Some?
    ensures r.(hp := c.hp, check := c.check, doku := c.doku, yakedo := c.yakedo,
               badStat := c.badStat, tailFlag := c.tailFlag) == c
  {
    Card(c.cardId, c.id, c.category, c.name,
         if c.hp.Some? then Some(0) else None,
         false, false, false, "", false)
  }

  /** `turn_reset`: clears the check mark and nothing else. */
  function TurnReset(c: Card): (r: Card)
    ensures !r.check
    ensures r.(check := c.check) == c
  {
    c.(check := false)
  }

  /** `card_tail`: turns the card face down and nothing else. */
  function CardTail(c: Card): (r: Card)
    ensures r.tailFlag
    ensures r.(tailFlag := c.tailFlag) == c
  {
    c.(tailFlag := true)
  }

  /* ---------------------------------------------------------------------
     Properties of the status operations
     --------------------------------------------------------------------- */

  /** Every status operation keeps a card well-formed. */
  lemma OperationsPreserveWellformed(c: Card, delta: int, key: string)
    requires Wellformed(c)
    ensures Wellformed(HpUpdate(c, delta))
    ensures Wellformed(StatUpdate(c, key))
    ensures Wellformed(CardReset(c))
    ensures Wellformed(TurnReset(c))
    ensures Wellformed(CardTail(c))
  {
    HpUpdateWellformed(c, delta);
    StatUpdateWellformed(c, key);
  }

  /** The hp counter stays a non-negative multiple of 10. */
  lemma HpUpdateWellformed(c: Card, delta: int)
    requires Wellformed(c)
    ensures Wellformed(HpUpdate(c, delta))
  {
  }

  /** The condition slot never receives anything but a condition key. */
  lemma StatUpdateWellformed(c: Card, key: string)
    requires Wellformed(c)
    ensures Wellformed(StatUpdate(c, key))
  {
  }

  /** A flag key applied twice restores the card. */
  lemma FlagToggleInvolution(c: Card, key: string)
    requires key == CheckKey || key == Poison || key == Burn
    ensures StatUpdate(StatUpdate(c, key), key) == c
  {
  }

  /** A condition key applied twice restores the card exactly when the slot
      held nothing or that same condition. */
  lemma ConditionTwice(c: Card, key: string)
    requires IsCondition(key)
    ensures StatUpdate(StatUpdate(c, key), key) == c <==> (c.badStat == "" || c.badStat == key)
  {
    var once := StatUpdate(c, key);
    if c.badStat != "" && c.badStat != key {
      assert once.badStat == key;
      assert StatUpdate(once, key).badStat == "";
    }
  }

  /** After a condition key the slot holds nothing or that condition: at
      most one condition is ever set. */
  lemma ConditionExclusive(c: Card, key: string)
    requires IsCondition(key)
    ensures StatUpdate(c, key).badStat == "" || StatUpdate(c, key).badStat == key
    ensures StatUpdate(c, key).badStat == key <==> c.badStat != key
  {
  }

  /** One step up and one step down returns the hp counter to where it was;
      the reverse order does so exactly when the counter was above 0. */
  lemma HpUpThenDown(c: Card)
    requires Wellformed(c)
    ensures HpUpdate(HpUpdate(c, 1), 0) == c
    ensures HpUpdate(HpUpdate(c, 0), 1) == c <==> (c.hp.None? || c.hp.value > 0)
  {
  }

  /** `card_reset` is `Card(...)` all over again: a freshly created card is
      already in reset state, and resetting twice is resetting once. */
  lemma ResetMatchesCreation(index: nat, cardId: string, fileName: string)
    requires NewCard(index, cardId, fileName).Success?
    ensures CardReset(NewCard(index, cardId, fileName).value) == NewCard(index, cardId, fileName).value
  {
  }

  lemma ResetIdempotent(c: Card)
    ensures CardReset(CardReset(c)) == CardReset(c)
  {
  }

  /* ---------------------------------------------------------------------
     On/off markers (CheckObject)
     --------------------------------------------------------------------- */

  /** `CheckObject.click`: flips the marker. */
  function Click(flag: bool): (r: bool)
    ensures r != flag
  {
    !flag
  }

  /** `CheckObject.reset`: the marker is off, whatever it was. */
  function MarkerReset(flag: bool): (r: bool)
    ensures !r
    ensures Click(r)
  {
    false
  }
}

=== FILE: decklist.dfy ===
/** The deck chosen for a match (GameEngine.py `CardList`): a name, the
    official deck code, and the printed-card ids of the 60 cards, together
    with the text file a deck is saved to and read back from.

    Files are modelled as their contents: `save` produces a string and
    `load_local` consumes the path and a string, which it reads in text mode,
    so that a "\r\n" or a lone '\r' in the file reads as '\n'.
 */
module DeckList {
  import opened Outcomes
  import opened Strings
  import opened Settings

  const DeckSize: nat := 60

  datatype CardList = CardList(name: string, code: string, list: seq<string>)

  /** `CardList()` and `reset`: no name, no code, no cards. */
  const EmptyList: CardList := CardList("", "", [])

  /** `check`: a deck may be played only with exactly 60 entries. */
  predicate Check(cl: CardList) {
    |cl.list| == DeckSize
  }

  function Min(a: nat, b: nat): nat {
    if a < b then a else b
  }

  /* ---------------------------------------------------------------------
     save
     --------------------------------------------------------------------- */

  /** `save`: every id on its own line, then the code with no newline. */
  function SaveText(ids: seq<string>, code: string): (r: string)
    ensures r == Join(ids + [code], '\n')
  {
    if |ids| == 0 then
      assert ids + [code] == [code];
      code
    else
      assert (ids + [code])[1..] == ids[1..] + [code];
      ids[0] + "\n" + SaveText(ids[1..], code)
  }

  /* ---------------------------------------------------------------------
     load_local
     --------------------------------------------------------------------- */

  /** The deck name `load_local` derives from a path: the last '/' segment
      with every ".txt" removed. */
  function FileName(path: string): string {
    RemoveAll(Last(Split(path, '/')), ".txt")
  }

  /** The lines `load_local` sees in a file: the text-mode reading split
      at '\n'. */
  function Lines(contents: string): seq<string> {
    Split(UniversalNewlines(contents), '\n')
  }

  /** `load_local` as written: the first 60 lines are the list and the last
      line is the code, whether or not the two overlap. */
  function LoadLocalAsWritten(path: string, contents: string): (r: CardList)
    ensures r.name == FileName(path)
    ensures r.code == Last(Lines(contents))
    ensures r.list <= Lines(contents)
    ensures |r.list| == Min(DeckSize, |Lines(contents)|)
  {
    var lines := Lines(contents);
    CardList(FileName(path), Last(lines), lines[..Min(DeckSize, |lines|)])
  }

  /** `load_local` as evidently intended: the last line is the code and
      only the lines before it, at most 60, are card ids. */
  function LoadLocal(path: string, contents: string): (r: CardList)
    ensures r.name == FileName(path)
    ensures r.code == Last(Lines(contents))
    ensures r.list <= Lines(contents)
    ensures |r.list| == Min(DeckSize, |Lines(contents)| - 1)
  {
    var lines := Lines(contents);
    CardList(FileName(path), Last(lines), lines[..Min(DeckSize, |lines| - 1)])
  }

  /** Reading back the lines of a saved deck whose ids and code hold no
      line break of either kind. */
  lemma SavedLines(ids: seq<string>, code: string)
    requires forall k :: 0 <= k < |ids| ==> '\n' !in ids[k] && '\r' !in ids[k]
    requires '\n' !in code && '\r' !in code
    ensures Lines(SaveText(ids, code)) == ids + [code]
  {
    JoinAvoids(ids + [code], '\n', '\r');
    SplitJoin(ids + [code], '\n');
  }

  /** A one-id file is the id, a line break and the code. */
  lemma SaveOne(id: string, code: string)
    ensures SaveText([id], code) == id + "\n" + code
  {
    assert [id] + [code] == [id, code];
    JoinTwo([id, code], '\n');
  }

  /** The lines of a text with a lone '\r' between `a` and `b`. */
  lemma ReturnLines(a: string, b: string, code: string)
    requires '\n' !in a && '\r' !in a
    requires |b| > 0 && '\n' !in b && '\r' !in b
    requires '\n' !in code && '\r' !in code
    ensures Lines(a + ("\r" + (b + "\n" + code))) == [a, b, code]
  {
    var tail := b + "\n" + code;
    assert '\r' !in tail;
    UniversalNewlinesReturnBetween(a, tail);
    JoinThree([a, b, code], '\n');
    assert a + ("\n" + tail) == Join([a, b, code], '\n');
    SplitJoin([a, b, code], '\n');
  }

  /** An id holding a lone '\r' is read back as two ids. */
  lemma ReturnSplitsId(path: string, a: string, b: string, code: string)
    requires '\n' !in a && '\r' !in a
    requires |b| > 0 && '\n' !in b && '\r' !in b
    requires '\n' !in code && '\r' !in code
    ensures LoadLocal(path, SaveText([a + "\r" + b], code)).list == [a, b]
  {
    SaveOne(a + "\r" + b, code);
    assert SaveText([a + "\r" + b], code) == a + ("\r" + (b + "\n" + code));
    ReturnLines(a, b, code);
  }

  /** The deck name of "dir/stem.txt" is the stem. */
  lemma FileNameOfPath(dir: string, stem: string)
    requires '/' !in stem && '.' !in stem
    ensures FileName(dir + "/" + stem + ".txt") == stem
  {
    assert dir + "/" + stem + ".txt" == dir + ['/'] + (stem + ".txt");
    SplitAppend(dir, stem + ".txt", '/');
    SplitNoSep(stem + ".txt", '/');
    RemoveAllTrailing(stem, ".txt");
  }

  /** A saved list of at most 60 ids, read back from "dir/stem.txt", gives
      the same ids, the same code, and the stem as its name. */
  lemma LoadSaved(dir: string, stem: string, ids: seq<string>, code: string)
    requires '/' !in stem && '.' !in stem
    requires |ids| <= DeckSize
    requires forall k :: 0 <= k < |ids| ==> '\n' !in ids[k] && '\r' !in ids[k]
    requires '\n' !in code && '\r' !in code
    ensures LoadLocal(dir + "/" + stem + ".txt", SaveText(ids, code)) == CardList(stem, code, ids)
  {
    SavedLines(ids, code);
    FileNameOfPath(dir, stem);
    assert (ids + [code])[..|ids|] == ids;
  }

  /** For the files the program itself writes, which always hold 60 ids,
      the code as written and the intended reading agree. */
  lemma LoadSavedAsWritten(dir: string, stem: string, ids: seq<string>, code: string)
    requires '/' !in stem && '.' !in stem
    requires |ids| == DeckSize
    requires forall k :: 0 <= k < |ids| ==> '\n' !in ids[k] && '\r' !in ids[k]
    requires '\n' !in code && '\r' !in code
    ensures LoadLocalAsWritten(dir + "/" + stem + ".txt", SaveText(ids, code)) == CardList(stem, code, ids)
  {
    LoadSaved(dir, stem, ids, code);
    SavedLines(ids, code);
  }

  /** A file of 59 ids and a code line passes the 60-card check as written:
      the code line is read as a 60th card.  The intended reading keeps the
      59 ids and refuses the deck. */
  lemma FiftyNineIdsPassCheck(path: string, ids: seq<string>, code: string)
    requires |ids| == DeckSize - 1
    requires forall k :: 0 <= k < |ids| ==> '\n' !in ids[k] && '\r' !in ids[k]
    requires '\n' !in code && '\r' !in code
    ensures LoadLocalAsWritten(path, SaveText(ids, code)).list == ids + [code]
    ensures Check(LoadLocalAsWritten(path, SaveText(ids, code)))
    ensures LoadLocal(path, SaveText(ids, code)).list == ids
    ensures !Check(LoadLocal(path, SaveText(ids, code)))
  {
    SavedLines(ids, code);
    assert (ids + [code])[..|ids|] == ids;
  }

  /* ---------------------------------------------------------------------
     load_online
     --------------------------------------------------------------------- */

  /** `load_online`, given what `create_deckid_list` returned: a non-empty
      result is appended to the emptied list; only a 60-card result also
      takes the deck id as name and code. */
  function LoadOnline(deckId: string, fetched: seq<string>): (r: CardList)
    ensures r.list == fetched
    ensures Check(r) <==> |fetched| == DeckSize
    ensures Check(r) ==> r.name == deckId && r.code == deckId
    ensures !Check(r) ==> r.name == "" && r.code == ""
  {
    if |fetched| == 0 then EmptyList
    else if |fetched| != DeckSize then CardList("", "", fetched)
    else CardList(deckId, deckId, fetched)
  }

  /** Fed from a scraped deck page, `load_online` either takes all 60 ids
      with the deck id, or ends up with the empty list: the branch for a
      non-empty list of another length is never reached. */
  lemma LoadOnlineFromPage(deckId: string, values: seq<string>)
    requires DeckIds(values).Success?
    ensures var r := LoadOnline(deckId, DeckIds(values).value);
      && (Check(r) <==> |ExpandAll(values).value| == DeckSize)
      && (Check(r) ==> r == CardList(deckId, deckId, ExpandAll(values).value))
      && (!Check(r) ==> r == EmptyList)
  {
  }
}

=== FILE: master.dfy ===
/** The card table of one player (GameEngine.py `Master`): seven zones keyed
    by name, the single move rule, match start and end, and the Field counter.

    The Field zone is `Master`'s own list; the other six are the child
    zones of the `dic` table.  A move raises before it changes any list,
    so a failed move is a `Failure` that leaves the table as it was.
    `start` can raise after it has already changed the table; it returns
    an `Outcome`, the table as the exception left it.
 */
module Master {
  import opened Outcomes
  import opened Cards
  import opened Zones

  /** The keys of `Master.dic`, numbered in the order the dictionary lists
      them. */
  newtype ZoneName = i: int | 0 <= i < 7

  const Field: ZoneName := 0
  const Deck: ZoneName := 1
  const Hand: ZoneName := 2
  const Temp: ZoneName := 3
  const Trash: ZoneName := 4
  const Side: ZoneName := 5
  const Lost: ZoneName := 6

  /** Opening hand and side (prize) pile dealt by `start`. */
  const HandSize: nat := 7
  const SideSize: nat := 6

  datatype Board = Board(
    zones: seq<Zone>,  // the list of each zone, at its ZoneName
    playCount: nat,    // cards put on the Field since the match started
    started: bool      // `flag`: a match has been started on this table
  )

  /** A board with exactly one list per zone name. */
  type Table = b: Board | |b.zones| == 7
    witness Board([[], [], [], [], [], [], []], 0, false)

  const EmptyTable: Table := Board([[], [], [], [], [], [], []], 0, false)

  /** `dic[name].list`. */
  function Get(t: Table, z: ZoneName): Zone {
    t.zones[z]
  }

  /** Replaces the contents of one zone. */
  function Set(t: Table, z: ZoneName, cards: Zone): (r: Table)
    ensures Get(r, z) == cards
    ensures forall y :: y != z ==> Get(r, y) == Get(t, y)
    ensures r.playCount == t.playCount && r.started == t.started
  {
    t.(zones := t.zones[z := cards])
  }

  /* ---------------------------------------------------------------------
     The cards on the table
     --------------------------------------------------------------------- */

  /** The cards of a list of zones. */
  function CardsIn(zs: seq<Zone>): multiset<Card>
  {
    if |zs| == 0 then multiset{} else multiset(zs[0]) + CardsIn(zs[1..])
  }

  /** Every card on the table, whatever zone holds it. */
  function AllCards(t: Table): multiset<Card> {
    CardsIn(t.zones)
  }

  /** Replacing one zone's list trades that zone's cards for the new ones
      and leaves every other card alone. */
  lemma {:induction false} CardsInUpdate(zs: seq<Zone>, i: nat, v: Zone)
    requires i < |zs|
    ensures CardsIn(zs[i := v]) + multiset(zs[i]) == CardsIn(zs) + multiset(v)
  {
    if i == 0 {
      assert zs[i := v][1..] == zs[1..];
    } else {
      assert zs[i := v][0] == zs[0];
      assert zs[i := v][1..] == zs[1..][i - 1 := v];
      assert zs[1..][i - 1] == zs[i];
      CardsInUpdate(zs[1..], i - 1, v);
      calc {
        CardsIn(zs[i := v]) + multiset(zs[i]);
        multiset(zs[0]) + (CardsIn(zs[1..][i - 1 := v]) + multiset(zs[i]));
        multiset(zs[0]) + (CardsIn(zs[1..]) + multiset(v));
        CardsIn(zs) + multiset(v);
      }
    }
  }

  lemma {:induction false} CardsInEmpty(zs: seq<Zone>)
    requires forall j :: 0 <= j < |zs| ==> zs[j] == []
    ensures CardsIn(zs) == multiset{}
  {
    if |zs| > 0 {
      CardsInEmpty(zs[1..]);
    }
  }

  /** When every zone but one is empty, the cards are that zone's. */
  lemma {:induction false} CardsInOnly(zs: seq<Zone>, i: nat)
    requires i < |zs|
    requires forall j :: 0 <= j < |zs| && j != i ==> zs[j] == []
    ensures CardsIn(zs) == multiset(zs[i])
  {
    if i == 0 {
      CardsInEmpty(zs[1..]);
    } else {
      CardsInOnly(zs[1..], i - 1);
    }
  }

  lemma SetCards(t: Table, z: ZoneName, cards: Zone)
    ensures AllCards(Set(t, z, cards)) + multiset(Get(t, z)) == AllCards(t) + multiset(cards)
  {
    CardsInUpdate(t.zones, z as nat, cards);
  }

  lemma MultisetCancel(a: multiset<Card>, b: multiset<Card>, x: multiset<Card>)
    requires a + x == b + x
    ensures a == b
  {
    forall e
      ensures a[e] == b[e]
    {
      assert (a + x)[e] == (b + x)[e];
    }
  }

  /* ---------------------------------------------------------------------
     add_card / move_crad
     --------------------------------------------------------------------- */

  /** `add_card` on a zone: appends; on the Field (`Master.add_card`) the
      play counter also advances. */
  function AddTo(t: Table, z: ZoneName, c: Card): (r: Table)
    ensures Get(r, z) == Get(t, z) + [c]
    ensures forall y :: y != z ==> Get(r, y) == Get(t, y)
    ensures r.playCount == t.playCount + (if z == Field then 1 else 0)
    ensures r.started == t.started
  {
    var r := Set(t, z, AddCard(Get(t, z), c));
    if z == Field then r.(playCount := r.playCount + 1) else r
  }

  /** Adding a card puts exactly that card on the table. */
  lemma AddToAdds(t: Table, z: ZoneName, c: Card)
    ensures AllCards(AddTo(t, z, c)) == AllCards(t) + multiset{c}
  {
    var cards := Get(t, z) + [c];
    SetCards(t, z, cards);
    assert multiset(cards) == multiset(Get(t, z)) + multiset{c};
    assert AllCards(AddTo(t, z, c)) == AllCards(Set(t, z, cards));
    MultisetCancel(AllCards(AddTo(t, z, c)), AllCards(t) + multiset{c}, multiset(Get(t, z)));
  }

  /** `move_crad(source, move_to, card)`: take the front card (or the named
      one) out of `source`, then append it to `move_to`. */
  function MoveCard(t: Table, source: ZoneName, moveTo: ZoneName, card: Option<Card>): (r: Result<Table>)
    ensures r.Success? <==> (if card.None? then |Get(t, source)| > 0 else card.value in Get(t, source))
    ensures r.Failure? ==> r.error == (if card.None? then EmptyPop else NotInList)
    ensures r.Success? ==> forall y :: y != source && y != moveTo ==> Get(r.value, y) == Get(t, y)
    ensures r.Success? && source != moveTo && card.None? ==>
      && Get(r.value, source) == Get(t, source)[1..]
      && Get(r.value, moveTo) == Get(t, moveTo) + [Get(t, source)[0]]
    ensures r.Success? && source != moveTo && card.Some? ==>
      && Get(r.value, source) == RemoveFirst(Get(t, source), card.value).value
      && Get(r.value, moveTo) == Get(t, moveTo) + [card.value]
    ensures r.Success? && source == moveTo ==>
      multiset(Get(r.value, source)) == multiset(Get(t, source))
    ensures r.Success? ==> r.value.playCount == t.playCount + (if moveTo == Field then 1 else 0)
    ensures r.Success? ==> r.value.started == t.started
  {
    match PopCard(Get(t, source), card)
    case Failure(e) => Failure(e)
    case Success(taken) =>
      Success(AddTo(Set(t, source, taken.1), moveTo, taken.0))
  }

  /** A move never creates, destroys or duplicates a card. */
  lemma MoveCardConserves(t: Table, source: ZoneName, moveTo: ZoneName, card: Option<Card>)
    requires MoveCard(t, source, moveTo, card).Success?
    ensures AllCards(MoveCard(t, source, moveTo, card).value) == AllCards(t)
  {
    var taken := PopCard(Get(t, source), card).value;
    var c, rest := taken.0, taken.1;
    var emptied := Set(t, source, rest);
    AddToAdds(emptied, moveTo, c);
    SetCards(t, source, rest);
    assert multiset(Get(t, source)) == multiset(rest) + multiset{c};
    MultisetCancel(AllCards(emptied) + multiset{c}, AllCards(t), multiset(rest));
  }

  /** A move request as the event handlers issue it. */
  datatype Move = Move(source: ZoneName, moveTo: ZoneName, card: Option<Card>)

  /** The table after a move request: a move whose removal fails raises
      before anything changes, so the table is the one before. */
  function ApplyMove(t: Table, m: Move): Table {
    match MoveCard(t, m.source, m.moveTo, m.card)
    case Success(t') => t'
    case Failure(_) => t
  }

  function ApplyMoves(t: Table, ms: seq<Move>): Table
    decreases |ms|
  {
    if |ms| == 0 then t else ApplyMoves(ApplyMove(t, ms[0]), ms[1..])
  }

  /** A failed move leaves both zones, and all the others, as they were. */
  lemma FailedMoveChangesNothing(t: Table, m: Move)
    requires MoveCard(t, m.source, m.moveTo, m.card).Failure?
    ensures ApplyMove(t, m) == t
  {
  }

  /** Conservation: no sequence of moves creates, destroys or duplicates a
      card. */
  lemma {:induction false} MovesConserveCards(t: Table, ms: seq<Move>)
    ensures AllCards(ApplyMoves(t, ms)) == AllCards(t)
    ensures |AllCards(ApplyMoves(t, ms))| == |AllCards(t)|
    decreases |ms|
  {
    if |ms| > 0 {
      var m := ms[0];
      if MoveCard(t, m.source, m.moveTo, m.card).Success? {
        MoveCardConserves(t, m.source, m.moveTo, m.card);
      }
      MovesConserveCards(ApplyMove(t, m), ms[1..]);
    }
  }

  /* ---------------------------------------------------------------------
     pop_card_all
     --------------------------------------------------------------------- */

  /** The `add_card` calls of `pop_card_all`, one per card, in order. */
  function AppendEach(t: Table, z: ZoneName, cards: seq<Card>): (r: Table)
    ensures Get(r, z) == Get(t, z) + cards
    ensures forall y :: y != z ==> Get(r, y) == Get(t, y)
    ensures r.playCount == t.playCount + (if z == Field then |cards| else 0)
    ensures r.started == t.started
    decreases |cards|
  {
    if |cards| == 0 then t
    else
      var r := AppendEach(AddTo(t, z, cards[0]), z, cards[1..]);
      assert cards == [cards[0]] + cards[1..];
      r
  }

  lemma {:induction false} AppendEachAdds(t: Table, z: ZoneName, cards: seq<Card>)
    ensures AllCards(AppendEach(t, z, cards)) == AllCards(t) + multiset(cards)
    decreases |cards|
  {
    if |cards| > 0 {
      var t1 := AddTo(t, z, cards[0]);
      AddToAdds(t, z, cards[0]);
      AppendEachAdds(t1, z, cards[1..]);
      assert cards == [cards[0]] + cards[1..];
      assert multiset(cards) == multiset{cards[0]} + multiset(cards[1..]);
    }
  }

  /** `pop_card_all(add_system)`: every card of `source`, in order, to the
      back of `moveTo`; `source` ends up empty.  (With `source == moveTo`
      the Python loop appends to the list it iterates and never ends.) */
  function PopCardAll(t: Table, source: ZoneName, moveTo: ZoneName): (r: Table)
    requires source != moveTo
    ensures Get(r, source) == []
    ensures Get(r, moveTo) == Get(t, moveTo) + Get(t, source)
    ensures forall y :: y != source && y != moveTo ==> Get(r, y) == Get(t, y)
    ensures r.playCount == t.playCount + (if moveTo == Field then |Get(t, source)| else 0)
    ensures r.started == t.started
  {
    Set(AppendEach(t, moveTo, Get(t, source)), source, [])
  }

  /** `pop_card_all` moves cards, it never creates or destroys one. */
  lemma PopCardAllConserves(t: Table, source: ZoneName, moveTo: ZoneName)
    requires source != moveTo
    ensures AllCards(PopCardAll(t, source, moveTo)) == AllCards(t)
  {
    var appended := AppendEach(t, moveTo, Get(t, source));
    AppendEachAdds(t, moveTo, Get(t, source));
    SetCards(appended, source, []);
    assert Get(appended, source) == Get(t, source);
    MultisetCancel(AllCards(PopCardAll(t, source, moveTo)), AllCards(t), multiset(Get(t, source)));
  }

  /* ---------------------------------------------------------------------
     The opening deal
     --------------------------------------------------------------------- */

  /** How many of `n` requested cards a deck of `size` cards gives before
      `pop(0)` raises. */
  function Dealt(n: nat, size: nat): nat {
    if n <= size then n else size
  }

  /** The whole deal at once: the top cards of the deck, as many of the `n`
      requested as there are, split off in order and appended to `dst`;
      `EmptyPop` when the deck held fewer than `n`. */
  function Deal(t: Table, n: nat, dst: ZoneName): (r: Outcome<Table>)
    requires dst != Deck
    ensures r.raised.None? <==> |Get(t, Deck)| >= n
    ensures r.raised.Some? ==> r.raised.value == EmptyPop
    ensures var m := Dealt(n, |Get(t, Deck)|);
      && Get(r.state, Deck) == Get(t, Deck)[m..]
      && Get(r.state, dst) == Get(t, dst) + Get(t, Deck)[..m]
      && (forall y :: y != Deck && y != dst ==> Get(r.state, y) == Get(t, y))
      && r.state.playCount == t.playCount + (if dst == Field then m else 0)
      && r.state.started == t.started
  {
    var m := Dealt(n, |Get(t, Deck)|);
    var moved := Set(Set(t, Deck, Get(t, Deck)[m..]), dst, Get(t, dst) + Get(t, Deck)[..m]);
    Outcome(if dst == Field then moved.(playCount := moved.playCount + m) else moved,
            if m < n then Some(EmptyPop) else None)
  }

  /** The `move_crad(Deck, dst)` loop of `start`, one card at a time, `n`
      times.  When the deck runs out the next `pop(0)` raises, and the cards
      already moved stay where they went: the loop is the whole deal at
      once, exception included. */
  function DealLoop(t: Table, n: nat, dst: ZoneName): (r: Outcome<Table>)
    requires dst != Deck
    ensures r == Deal(t, n, dst)
    decreases n
  {
    if n == 0 then
      DealNothing(t, n, dst);
      Outcome(t, None)
    else
      match MoveCard(t, Deck, dst, None)
      case Failure(e) =>
        DealNothing(t, n, dst);
        Outcome(t, Some(e))
      case Success(t1) =>
        DealStep(t, n, dst);
        DealLoop(t1, n - 1, dst)
  }

  /** Tables that agree on every zone and both counters are the same table. */
  lemma TableExt(a: Table, b: Table)
    requires forall y :: Get(a, y) == Get(b, y)
    requires a.playCount == b.playCount && a.started == b.started
    ensures a == b
  {
    forall j | 0 <= j < 7
      ensures a.zones[j] == b.zones[j]
    {
      assert Get(a, j as ZoneName) == Get(b, j as ZoneName);
    }
  }

  /** Dealing no card, or dealing from an empty deck, leaves the table. */
  lemma DealNothing(t: Table, n: nat, dst: ZoneName)
    requires dst != Deck && (n == 0 || |Get(t, Deck)| == 0)
    ensures Deal(t, n, dst).state == t
  {
    var r := Deal(t, n, dst).state;
    assert Get(t, Deck)[0..] == Get(t, Deck) && Get(t, dst) + Get(t, Deck)[..0] == Get(t, dst);
    TableExt(r, t);
  }

  /** One card off the top, then `n - 1` more, is `n` cards off the top. */
  lemma DealtPrefix(deck: Zone, dst: Zone, n: nat)
    requires 0 < n <= |deck|
    ensures deck[1..][n - 1..] == deck[n..]
    ensures (dst + [deck[0]]) + deck[1..][..n - 1] == dst + deck[..n]
  {
    assert deck[..n] == [deck[0]] + deck[1..][..n - 1];
  }

  /** Moving the top card and then dealing `n - 1` is dealing `n`. */
  lemma DealStep(t: Table, n: nat, dst: ZoneName)
    requires dst != Deck && n > 0 && |Get(t, Deck)| > 0
    ensures Deal(MoveCard(t, Deck, dst, None).value, n - 1, dst) == Deal(t, n, dst)
  {
    var deck := Get(t, Deck);
    var t1 := MoveCard(t, Deck, dst, None).value;
    assert Get(t1, Deck) == deck[1..] && Get(t1, dst) == Get(t, dst) + [deck[0]];
    var m := Dealt(n, |deck|);
    assert Dealt(n - 1, |deck| - 1) == m - 1;
    DealtPrefix(deck, Get(t, dst), m);
    var a, b := Deal(t1, n - 1, dst), Deal(t, n, dst);
    TableExt(a.state, b.state);
  }

  /** The whole deal keeps every card on the table. */
  lemma DealConserves(t: Table, n: nat, dst: ZoneName)
    requires dst != Deck
    ensures AllCards(Deal(t, n, dst).state) == AllCards(t)
  {
    var deck, m := Get(t, Deck), Dealt(n, |Get(t, Deck)|);
    var pre, suf := multiset(deck[..m]), multiset(deck[m..]);
    var t1 := Set(t, Deck, deck[m..]);
    var t2 := Set(t1, dst, Get(t, dst) + deck[..m]);
    assert deck == deck[..m] + deck[m..];
    SetCards(t, Deck, deck[m..]);
    MultisetCancel(AllCards(t1) + pre, AllCards(t), suf);
    SetCards(t1, dst, Get(t, dst) + deck[..m]);
    MultisetCancel(AllCards(t2), AllCards(t1) + pre, multiset(Get(t, dst)));
    assert AllCards(Deal(t, n, dst).state) == AllCards(t2);
  }

  /** Dealing card by card, whether or not the deck runs out, keeps every
      card on the table. */
  lemma DealLoopConserves(t: Table, n: nat, dst: ZoneName)
    requires dst != Deck
    ensures AllCards(DealLoop(t, n, dst).state) == AllCards(t)
  {
    DealConserves(t, n, dst);
  }


  /* ---------------------------------------------------------------------
     Gathering the cards back on a restart
     --------------------------------------------------------------------- */

  /** Restart: every zone's cards, Field first, gathered at the back of the
      deck in the order `start` calls `pop_card_all`. */
  function Regather(t: Table): (r: Table)
    ensures Get(r, Deck) == Get(t, Deck) + Get(t, Field) + Get(t, Hand) + Get(t, Temp) + Get(t, Trash) + Get(t, Side) + Get(t, Lost)
    ensures forall y :: y != Deck ==> Get(r, y) == []
    ensures r.playCount == t.playCount && r.started == t.started
  {
    var t1 := PopCardAll(t, Field, Deck);
    var t2 := PopCardAll(t1, Hand, Deck);
    var t3 := PopCardAll(t2, Temp, Deck);
    var t4 := PopCardAll(t3, Trash, Deck);
    var t5 := PopCardAll(t4, Side, Deck);
    PopCardAll(t5, Lost, Deck)
  }

  /** Restarting keeps exactly the cards that were on the table. */
  lemma RegatherConserves(t: Table)
    ensures AllCards(Regather(t)) == AllCards(t)
  {
    var t1 := PopCardAll(t, Field, Deck);
    var t2 := PopCardAll(t1, Hand, Deck);
    var t3 := PopCardAll(t2, Temp, Deck);
    var t4 := PopCardAll(t3, Trash, Deck);
    var t5 := PopCardAll(t4, Side, Deck);
    PopCardAllConserves(t, Field, Deck);
    PopCardAllConserves(t1, Hand, Deck);
    PopCardAllConserves(t2, Temp, Deck);
    PopCardAllConserves(t3, Trash, Deck);
    PopCardAllConserves(t4, Side, Deck);
    PopCardAllConserves(t5, Lost, Deck);
  }

  /* ---------------------------------------------------------------------
     start
     --------------------------------------------------------------------- */

  /** The `enumerate` loop of a first start: `make(index, entry)` for each
      entry in turn, numbered from `from`, until `make` raises; the cards
      made before that are the ones returned. */
  function MakeEach(ids: seq<string>, make: (nat, string) -> Result<Card>, from: nat): (r: seq<Card>)
    ensures |r| <= |ids|
    decreases |ids|
  {
    if |ids| == 0 then []
    else
      match make(from, ids[0])
      case Failure(_) => []
      case Success(c) => [c] + MakeEach(ids[1..], make, from + 1)
  }

  /** Card k is what `make` gives for entry k with index `from + k`. */
  lemma {:induction false} MakeEachAt(ids: seq<string>, make: (nat, string) -> Result<Card>, from: nat, k: nat)
    requires k < |MakeEach(ids, make, from)|
    ensures make(from + k, ids[k]) == Success(MakeEach(ids, make, from)[k])
    decreases k
  {
    if k > 0 {
      MakeEachAt(ids[1..], make, from + 1, k - 1);
      assert ids[1..][k - 1] == ids[k];
    }
  }

  /** The entry after the last card made, if any, is one `make` rejects. */
  lemma {:induction false} MakeEachStop(ids: seq<string>, make: (nat, string) -> Result<Card>, from: nat)
    requires |MakeEach(ids, make, from)| < |ids|
    ensures var m := |MakeEach(ids, make, from)|;
      make(from + m, ids[m]).Failure?
    decreases |ids|
  {
    if make(from, ids[0]).Success? {
      var rest := MakeEach(ids[1..], make, from + 1);
      MakeEachStop(ids[1..], make, from + 1);
      assert ids[1..][|rest|] == ids[1 + |rest|];
    }
  }

  /** `Object.Card(index, card_id)`, reading the image file name of the
      printed card through `fileOf`. */
  function Maker(fileOf: string -> string): (nat, string) -> Result<Card> {
    (index: nat, id: string) => NewCard(index, id, fileOf(id))
  }

  /** The cards of a first start: one per deck-list entry, numbered from
      `from`.  An entry whose file name does not unpack into a category and
      a name raises; the cards made before it are the ones returned. */
  function MakeCards(ids: seq<string>, fileOf: string -> string, from: nat): (r: seq<Card>)
    ensures |r| <= |ids|
  {
    MakeEach(ids, Maker(fileOf), from)
  }

  /** Card k of a first start is the one `Card(from + k, ids[k])` makes, and
      the entry after the last card made, if any, cannot be made. */
  lemma MakeCardsMeaning(ids: seq<string>, fileOf: string -> string, from: nat)
    ensures var r := MakeCards(ids, fileOf, from);
      && (forall k :: 0 <= k < |r| ==> NewCard(from + k, ids[k], fileOf(ids[k])) == Success(r[k]))
      && (|r| < |ids| ==> NewCard(from + |r|, ids[|r|], fileOf(ids[|r|])).Failure?)
  {
    var r := MakeCards(ids, fileOf, from);
    forall k | 0 <= k < |r|
      ensures NewCard(from + k, ids[k], fileOf(ids[k])) == Success(r[k])
    {
      MakeEachAt(ids, Maker(fileOf), from, k);
      assert Maker(fileOf)(from + k, ids[k]) == NewCard(from + k, ids[k], fileOf(ids[k]));
    }
    if |r| < |ids| {
      MakeEachStop(ids, Maker(fileOf), from);
      assert Maker(fileOf)(from + |r|, ids[|r|]) == NewCard(from + |r|, ids[|r|], fileOf(ids[|r|]));
    }
  }

  /** A first start makes a card of every entry exactly when every entry
      can be made. */
  lemma MakeCardsComplete(ids: seq<string>, fileOf: string -> string)
    ensures |MakeCards(ids, fileOf, 0)| == |ids|
        <==> forall k :: 0 <= k < |ids| ==> NewCard(k, ids[k], fileOf(ids[k])).Success?
  {
    MakeCardsMeaning(ids, fileOf, 0);
    var r := MakeCards(ids, fileOf, 0);
    if |r| == |ids| {
      forall k | 0 <= k < |ids|
        ensures NewCard(k, ids[k], fileOf(ids[k])).Success?
      {
        assert NewCard(0 + k, ids[k], fileOf(ids[k])) == Success(r[k]);
      }
    }
  }

  /** The first half of `Master.start`.  The play counter is reset and the
      table marked as started at once; then either every zone is cleared
      and one new card per deck-list entry is added to the deck, or, on a
      restart, every zone's cards are gathered back into the deck.  A card
      that cannot be made raises, leaving the cards made before it in the
      deck. */
  function Gathered(t: Table, ids: seq<string>, fileOf: string -> string): (r: Outcome<Table>)
    ensures r.state.playCount == 0 && r.state.started
    ensures forall y :: y != Deck ==> Get(r.state, y) == []
    ensures !t.started ==> Get(r.state, Deck) == MakeCards(ids, fileOf, 0)
    ensures t.started ==> Get(r.state, Deck) == Get(Regather(t), Deck)
    ensures r.raised.None? <==> t.started || |MakeCards(ids, fileOf, 0)| == |ids|
    ensures r.raised.Some? ==> r.raised.value == BadUnpack
  {
    if t.started then Outcome(Regather(t).(playCount := 0), None)
    else
      var made := MakeCards(ids, fileOf, 0);
      Outcome(Set(EmptyTable, Deck, made).(started := true),
              if |made| == |ids| then None else Some(BadUnpack))
  }

  /** What gathering leaves: every card in the deck, the table's own on a
      restart and the newly made ones on a first start. */
  lemma GatheredShape(t: Table, ids: seq<string>, fileOf: string -> string)
    ensures var g := Gathered(t, ids, fileOf).state;
      && |Get(g, Deck)| == (if t.started then |AllCards(t)| else |MakeCards(ids, fileOf, 0)|)
      && AllCards(g) == (if t.started then AllCards(t) else multiset(MakeCards(ids, fileOf, 0)))
  {
    var g := Gathered(t, ids, fileOf).state;
    forall j | 0 <= j < 7 && j != Deck as int
      ensures g.zones[j] == []
    {
      assert Get(g, j as ZoneName) == [];
    }
    CardsInOnly(g.zones, Deck as nat);
    if t.started {
      RegatherConserves(t);
      CardsInOnly(Regather(t).zones, Deck as nat);
    }
  }

  /** The second half of `Master.start`: shuffle the gathered deck with the
      supplied draws, then move 7 cards to the hand and 6 to the side pile,
      one at a time.  A deck that runs out raises with the cards moved so
      far left where they went. */
  function OpeningDeal(g: Table, draws: seq<nat>): (r: Outcome<Table>)
    ensures r.raised.None? <==> |Get(g, Deck)| >= HandSize + SideSize
    ensures r.raised.Some? ==> r.raised.value == EmptyPop
    ensures var deck, h := Shuffle(Get(g, Deck), draws), Dealt(HandSize, |Get(g, Deck)|);
      var s := Dealt(SideSize, |Get(g, Deck)| - h);
      && Get(r.state, Hand) == Get(g, Hand) + deck[..h]
      && Get(r.state, Side) == Get(g, Side) + deck[h..h + s]
      && Get(r.state, Deck) == deck[h + s..]
      && (forall y :: y != Deck && y != Hand && y != Side ==> Get(r.state, y) == Get(g, y))
      && r.state.playCount == g.playCount && r.state.started == g.started
  {
    var deck := Shuffle(Get(g, Deck), draws);
    var shuffled := Set(g, Deck, deck);
    assert Get(shuffled, Deck) == deck && |deck| == |Get(g, Deck)|;
    assert Get(shuffled, Hand) == Get(g, Hand) && Get(shuffled, Side) == Get(g, Side);
    HandThenSide(shuffled);
    var toHand := Deal(shuffled, HandSize, Hand);
    if toHand.raised.Some? then toHand
    else Deal(toHand.state, SideSize, Side)
  }

  /** The two deals of `start` in a row, the second only when the first
      did not raise: the hand and then the side pile take the top cards. */
  lemma HandThenSide(t: Table)
    ensures var toHand := Deal(t, HandSize, Hand);
      var r := if toHand.raised.Some? then toHand else Deal(toHand.state, SideSize, Side);
      var deck, h := Get(t, Deck), Dealt(HandSize, |Get(t, Deck)|);
      var s := Dealt(SideSize, |deck| - h);
      && (r.raised.None? <==> |deck| >= HandSize + SideSize)
      && (r.raised.Some? ==> r.raised.value == EmptyPop)
      && Get(r.state, Hand) == Get(t, Hand) + deck[..h]
      && Get(r.state, Side) == Get(t, Side) + deck[h..h + s]
      && Get(r.state, Deck) == deck[h + s..]
      && (forall y :: y != Deck && y != Hand && y != Side ==> Get(r.state, y) == Get(t, y))
      && r.state.playCount == t.playCount && r.state.started == t.started
  {
    var deck := Get(t, Deck);
    var toHand := Deal(t, HandSize, Hand);
    if toHand.raised.None? {
      var s := Dealt(SideSize, |deck| - HandSize);
      assert deck[HandSize..][..s] == deck[HandSize..HandSize + s];
      assert deck[HandSize..][s..] == deck[HandSize + s..];
    }
  }

  lemma OpeningDealKeepsCards(g: Table, draws: seq<nat>)
    ensures AllCards(OpeningDeal(g, draws).state) == AllCards(g)
  {
    var deck := Shuffle(Get(g, Deck), draws);
    var shuffled := Set(g, Deck, deck);
    SetCards(g, Deck, deck);
    MultisetCancel(AllCards(shuffled), AllCards(g), multiset(deck));
    DealConserves(shuffled, HandSize, Hand);
    var toHand := Deal(shuffled, HandSize, Hand);
    if toHand.raised.None? {
      DealConserves(toHand.state, SideSize, Side);
    }
  }

  /** `Master.start`: gather (or create) the cards into the deck, then the
      opening deal.  An exception in either half ends the call with the
      table as that half left it. */
  function Start(t: Table, ids: seq<string>, fileOf: string -> string, draws: seq<nat>): (r: Outcome<Table>)
    ensures var n := if t.started then |AllCards(t)| else |ids|;
      r.raised.None? <==> (Gathered(t, ids, fileOf).raised.None? && n >= HandSize + SideSize)
    ensures r.raised.Some? ==> r.raised.value == (if Gathered(t, ids, fileOf).raised.Some? then BadUnpack else EmptyPop)
    ensures r.state.started && r.state.playCount == 0
  {
    var g := Gathered(t, ids, fileOf);
    GatheredShape(t, ids, fileOf);
    if g.raised.Some? then g else OpeningDeal(g.state, draws)
  }

  /** Once the cards are gathered, a start deals 7 to the hand and 6 to the
      side pile, or as many as the deck holds, keeps the rest in the deck,
      and leaves every other zone empty and the counter at 0. */
  lemma StartShape(t: Table, ids: seq<string>, fileOf: string -> string, draws: seq<nat>)
    requires Gathered(t, ids, fileOf).raised.None?
    ensures var r, n := Start(t, ids, fileOf, draws).state, (if t.started then |AllCards(t)| else |ids|);
      var h := Dealt(HandSize, n);
      && |Get(r, Hand)| == h && |Get(r, Side)| == Dealt(SideSize, n - h)
      && |Get(r, Deck)| == n - h - Dealt(SideSize, n - h)
      && Get(r, Field) == [] && Get(r, Temp) == [] && Get(r, Trash) == [] && Get(r, Lost) == []
      && r.playCount == 0 && r.started
  {
    var g := Gathered(t, ids, fileOf).state;
    GatheredShape(t, ids, fileOf);
    var n := |Get(g, Deck)|;
    assert n == if t.started then |AllCards(t)| else |ids|;
    assert Start(t, ids, fileOf, draws) == OpeningDeal(g, draws);
    OpeningDealOnEmpty(g, draws);
  }

  /** The opening deal on a table whose cards are all in the deck. */
  lemma OpeningDealOnEmpty(g: Table, draws: seq<nat>)
    requires forall y :: y != Deck ==> Get(g, y) == []
    ensures var r, n := OpeningDeal(g, draws).state, |Get(g, Deck)|;
      var h := Dealt(HandSize, n);
      && |Get(r, Hand)| == h && |Get(r, Side)| == Dealt(SideSize, n - h)
      && |Get(r, Deck)| == n - h - Dealt(SideSize, n - h)
      && Get(r, Field) == [] && Get(r, Temp) == [] && Get(r, Trash) == [] && Get(r, Lost) == []
      && r.playCount == g.playCount && r.started == g.started
  {
    var r, n := OpeningDeal(g, draws).state, |Get(g, Deck)|;
    var deck := Shuffle(Get(g, Deck), draws);
    var h := Dealt(HandSize, n);
    var s := Dealt(SideSize, n - h);
    assert |deck| == n && h <= n && h + s <= n;
    assert Get(g, Hand) == [] && Get(g, Side) == [];
    assert Get(r, Hand) == deck[..h];
    assert Get(r, Side) == deck[h..h + s];
    assert Get(r, Deck) == deck[h + s..];
    assert Get(r, Field) == Get(g, Field) && Get(r, Temp) == Get(g, Temp);
    assert Get(r, Trash) == Get(g, Trash) && Get(r, Lost) == Get(g, Lost);
  }

  /** Starting, even when it raises, keeps exactly the gathered cards: on a
      restart the table's own, on a first start the newly made ones. */
  lemma StartKeepsCards(t: Table, ids: seq<string>, fileOf: string -> string, draws: seq<nat>)
    ensures AllCards(Start(t, ids, fileOf, draws).state)
         == if t.started then AllCards(t) else multiset(MakeCards(ids, fileOf, 0))
  {
    GatheredShape(t, ids, fileOf);
    OpeningDealKeepsCards(Gathered(t, ids, fileOf).state, draws);
  }

  /** A restart of a 60-card table deals 7 and 6 and keeps the other 47 in
      the deck, with exactly the same cards on the table as before. */
  lemma RestartDeals(t: Table, ids: seq<string>, fileOf: string -> string, draws: seq<nat>)
    requires t.started && |AllCards(t)| == 60
    ensures Start(t, ids, fileOf, draws).raised.None?
    ensures var r := Start(t, ids, fileOf, draws).state;
      |Get(r, Deck)| == 47 && |Get(r, Hand)| == 7 && |Get(r, Side)| == 6
      && Get(r, Field) == [] && Get(r, Temp) == [] && Get(r, Trash) == [] && Get(r, Lost) == []
      && AllCards(r) == AllCards(t)
  {
    StartShape(t, ids, fileOf, draws);
    StartKeepsCards(t, ids, fileOf, draws);
  }

  /** A sequence without repeats holds each of its elements once. */
  lemma {:induction false} DistinctOnce(s: seq<Card>)
    requires forall i, j :: 0 <= i < j < |s| ==> s[i] != s[j]
    ensures forall c :: c in multiset(s) ==> multiset(s)[c] == 1
  {
    if |s| > 0 {
      DistinctOnce(s[1..]);
      assert s == [s[0]] + s[1..];
      assert s[0] !in s[1..];
    }
  }

  /** A first start on a 60-entry list whose cards can all be made: cards
      `id_0` .. `id_59`, card k made from list entry k, each on the table
      exactly once, dealt 47/7/6. */
  lemma FirstStartDealsEachCardOnce(ids: seq<string>, fileOf: string -> string, draws: seq<nat>)
    requires |ids| == 60
    requires |MakeCards(ids, fileOf, 0)| == 60
    ensures Start(EmptyTable, ids, fileOf, draws).raised.None?
    ensures var r, made := Start(EmptyTable, ids, fileOf, draws).state, MakeCards(ids, fileOf, 0);
      && |Get(r, Deck)| == 47 && |Get(r, Hand)| == 7 && |Get(r, Side)| == 6
      && AllCards(r) == multiset(made)
      && (forall k :: 0 <= k < 60 ==> made[k].id == IdOf(k) && made[k].cardId == ids[k])
      && (forall c :: c in AllCards(r) ==> AllCards(r)[c] == 1)
  {
    var made := MakeCards(ids, fileOf, 0);
    MakeCardsMeaning(ids, fileOf, 0);
    forall i, j | 0 <= i < j < |made|
      ensures made[i] != made[j]
    {
      if made[i] == made[j] {
        IdOfInjective(i, j);
      }
    }
    DistinctOnce(made);
    StartShape(EmptyTable, ids, fileOf, draws);
    StartKeepsCards(EmptyTable, ids, fileOf, draws);
  }

  /** A first start whose deck list has an entry that cannot be made raises
      after marking the table as started and putting the cards made before
      that entry in the deck; nothing is dealt. */
  lemma FailedFirstStart(t: Table, ids: seq<string>, fileOf: string -> string, draws: seq<nat>)
    requires !t.started && |MakeCards(ids, fileOf, 0)| < |ids|
    ensures Start(t, ids, fileOf, draws).raised == Some(BadUnpack)
    ensures var r := Start(t, ids, fileOf, draws).state;
      && r.started && r.playCount == 0
      && Get(r, Deck) == MakeCards(ids, fileOf, 0)
      && forall y :: y != Deck ==> Get(r, y) == []
  {
  }

  /** Starting again after such a failure takes the restart branch: the
      match is played with the cards made before the failure, and the deal
      completes exactly when there are at least 13 of them. */
  lemma RetryAfterFailedFirstStart(t: Table, ids: seq<string>, fileOf: string -> string, draws: seq<nat>, again: seq<nat>)
    requires !t.started && |MakeCards(ids, fileOf, 0)| < |ids|
    ensures var left := Start(t, ids, fileOf, draws).state;
      && AllCards(Start(left, ids, fileOf, again).state) == multiset(MakeCards(ids, fileOf, 0))
      && (Start(left, ids, fileOf, again).raised.None? <==> |MakeCards(ids, fileOf, 0)| >= HandSize + SideSize)
  {
    var left := Start(t, ids, fileOf, draws).state;
    StartKeepsCards(t, ids, fileOf, draws);
    StartKeepsCards(left, ids, fileOf, again);
    assert |AllCards(left)| == |MakeCards(ids, fileOf, 0)|;
  }

  /** `Master.end`: the windows close and the table is no longer started;
      the cards stay where they are. */
  function End(t: Table): (r: Table)
    ensures !r.started
    ensures forall y :: Get(r, y) == Get(t, y)
    ensures r.playCount == t.playCount
  {
    t.(started := false)
  }

  /** After `end`, the next start makes every card afresh from the deck
      list: nothing of the previous match carries over. */
  lemma EndThenStartIsFresh(t: Table, ids: seq<string>, fileOf: string -> string, draws: seq<nat>)
    ensures Start(End(t), ids, fileOf, draws) == Start(EmptyTable, ids, fileOf, draws)
  {
  }

  /* ---------------------------------------------------------------------
     Status of a card on the Field
     --------------------------------------------------------------------- */

  /** `Master.card_stat_update`: the status key applied to the first Field
      card with the selected id; with no such card `find_card` returns
      `None` and the attribute access raises. */
  function FieldStatUpdate(t: Table, tag: string, key: string): (r: Result<Table>)
    ensures r.Failure? <==> forall i :: 0 <= i < |Get(t, Field)| ==> Get(t, Field)[i].id != tag
    ensures r.Failure? ==> r.error == NoSuchCard
    ensures r.Success? ==>
      var k := FindIndex(Get(t, Field), tag).value;
      && r.value == Set(t, Field, Get(t, Field)[k := StatUpdate(Get(t, Field)[k], key)])
      && (forall i :: 0 <= i < k ==> Get(t, Field)[i].id != tag)
  {
    match FindIndex(Get(t, Field), tag)
    case None => Failure(NoSuchCard)
    case Some(k) => Success(Set(t, Field, Get(t, Field)[k := StatUpdate(Get(t, Field)[k], key)]))
  }

  /** Zones whose cards carry the same ids position by position are
      searched alike. */
  lemma {:induction false} FindIndexSameIds(a: Zone, b: Zone, tag: string)
    requires |a| == |b|
    requires forall i :: 0 <= i < |a| ==> a[i].id == b[i].id
    ensures FindIndex(a, tag) == FindIndex(b, tag)
  {
    if |a| > 0 {
      FindIndexSameIds(a[1..], b[1..], tag);
    }
  }

  /** Toggling a flag of a Field card twice restores the whole table. */
  lemma FieldToggleTwice(t: Table, tag: string, key: string)
    requires key == CheckKey || key == Poison || key == Burn
    requires FieldStatUpdate(t, tag, key).Success?
    ensures FieldStatUpdate(FieldStatUpdate(t, tag, key).value, tag, key) == Success(t)
  {
    var k := FindIndex(Get(t, Field), tag).value;
    var t1 := FieldStatUpdate(t, tag, key).value;
    FindIndexSameIds(Get(t, Field), Get(t1, Field), tag);
    FlagToggleInvolution(Get(t, Field)[k], key);
    var back := Get(t1, Field)[k := StatUpdate(Get(t1, Field)[k], key)];
    assert back == Get(t, Field);
    TableExt(Set(t1, Field, back), t);
  }
}

=== FILE: outcomes.dfy ===
/** Failure-carrying results for the card-table model.

    The Python program signals failures by raising exceptions.  A model
    operation that raises before it changes anything returns a `Result`; one
    that may raise after it has already changed some state returns an
    `Outcome`, the state as the exception left it.  The error names the
    cause in the program's own terms.
 */
module Outcomes {

  /** The exceptions the modelled code can raise. */
  datatype Error =
    | EmptyPop        // `list.pop(0)` on an empty list (IndexError)
    | NotInList       // `list.remove(x)` with `x` absent (ValueError)
    | BadInt          // `int(s)` on a string that is not a number (ValueError)
    | BadUnpack       // tuple unpacking of a `split` with the wrong part count (ValueError)
    | ShortString     // string indexing past the end (IndexError)
    | NoSuchCard      // attribute access on the `None` that `find_card` returns (AttributeError)

  datatype Option<+T> = None | Some(value: T)

  datatype Result<+T> = Success(value: T) | Failure(error: Error) {

    predicate IsFailure() {
      Failure?
    }

    function PropagateFailure<U>(): Result<U>
      requires Failure?
    {
      Failure(error)
    }

    function Extract(): T
      requires Success?
    {
      value
    }
  }

  /** A call that may raise part-way: the state it leaves behind, and the
      exception it raised, if any. */
  datatype Outcome<+S> = Outcome(state: S, raised: Option<Error>)
}

=== FILE: settings.dfy ===
/** The pure helpers of Setting.py: colour inversion, the window geometry
    string, the canvas size, the expansion of an official deck code's hidden
    values into card ids, and the 12 x 5 layout of the deck picture.
 */
module Settings {
  import opened Outcomes
  import opened Strings

  /* ---------------------------------------------------------------------
     Hexadecimal text
     --------------------------------------------------------------------- */

  /** A character `format(n, "x")` may produce. */
  predicate IsLowerHex(c: char) {
    '0' <= c <= '9' || 'a' <= c <= 'f'
  }

  function HexDigit(d: nat): (c: char)
    requires d < 16
    ensures IsLowerHex(c)
  {
    if d < 10 then ('0' as int + d) as char else ('a' as int + d - 10) as char
  }

  /** The value of one digit as `int(x, 16)` reads it, either case. */
  function HexValue(c: char): (r: Option<nat>)
    ensures r.Some? ==> r.value < 16
  {
    if '0' <= c <= '9' then Some(c as int - '0' as int)
    else if 'a' <= c <= 'f' then Some(c as int - 'a' as int + 10)
    else if 'A' <= c <= 'F' then Some(c as int - 'A' as int + 10)
    else None
  }

  lemma HexValueOfDigit(d: nat)
    requires d < 16
    ensures HexValue(HexDigit(d)) == Some(d)
  {
  }

  predicate IsHexText(s: string) {
    forall i :: 0 <= i < |s| ==> IsLowerHex(s[i])
  }

  lemma HexTextConcat(a: string, b: string)
    requires IsHexText(a) && IsHexText(b)
    ensures IsHexText(a + b)
  {
  }

  /** `format(n, "x")`: lower-case hexadecimal without padding. */
  function HexStr(n: nat): (r: string)
    ensures |r| >= 1
    ensures IsHexText(r)
  {
    if n < 16 then [HexDigit(n)] else HexStr(n / 16) + [HexDigit(n % 16)]
  }

  /** Two hexadecimal digits, zero padded: the usual "#rrggbb" channel. */
  function Hex2(n: nat): (r: string)
    requires n < 256
    ensures |r| == 2
  {
    [HexDigit(n / 16), HexDigit(n % 16)]
  }

  lemma Hex2IsHexText(n: nat)
    requires n < 256
    ensures IsHexText(Hex2(n))
  {
  }

  /** A channel below 16 prints as one digit, any other as its two padded digits. */
  lemma HexStrOfChannel(n: nat)
    requires n < 256
    ensures n < 16 ==> |HexStr(n)| == 1
    ensures n >= 16 ==> HexStr(n) == Hex2(n)
  {
  }

  /** `int(a + b, 16)` for two characters. */
  function HexPair(a: char, b: char): (r: Result<nat>)
    ensures r.Success? <==> HexValue(a).Some? && HexValue(b).Some?
    ensures r.Failure? ==> r.error == BadInt
    ensures r.Success? ==> r.value < 256
  {
    match (HexValue(a), HexValue(b))
    case (Some(x), Some(y)) => Success(16 * x + y)
    case _ => Failure(BadInt)
  }

  lemma HexPairOfHex2(n: nat)
    requires n < 256
    ensures HexPair(Hex2(n)[0], Hex2(n)[1]) == Success(n)
  {
    HexValueOfDigit(n / 16);
    HexValueOfDigit(n % 16);
  }

  /* ---------------------------------------------------------------------
     get_reverse_color
     --------------------------------------------------------------------- */

  /** The colour "#rrggbb" with each channel written as two digits. */
  function RgbColor(r: nat, g: nat, b: nat): string
    requires r < 256 && g < 256 && b < 256
  {
    "#" + Hex2(r) + Hex2(g) + Hex2(b)
  }

  /** The three channels "rrggbb" at the front of `s`, as `int(x, 16)`
      reads each pair. */
  function Channels(s: string): (r: Result<(nat, nat, nat)>)
    requires |s| >= 6
    ensures r.Success? <==> forall i :: 0 <= i < 6 ==> HexValue(s[i]).Some?
    ensures r.Failure? ==> r.error == BadInt
    ensures r.Success? ==> r.value.0 < 256 && r.value.1 < 256 && r.value.2 < 256
  {
    var red :- HexPair(s[0], s[1]);
    var green :- HexPair(s[2], s[3]);
    var blue :- HexPair(s[4], s[5]);
    Success((red, green, blue))
  }

  /** Each channel x printed as 255 - x without padding. */
  function Inverted(red: nat, green: nat, blue: nat): (out: string)
    requires red < 256 && green < 256 && blue < 256
    ensures 4 <= |out| <= 7 && out[0] == '#'
    ensures IsHexText(out[1..])
  {
    var digits := HexStr(255 - red) + HexStr(255 - green) + HexStr(255 - blue);
    HexStrOfChannel(255 - red);
    HexStrOfChannel(255 - green);
    HexStrOfChannel(255 - blue);
    HexTextConcat(HexStr(255 - red), HexStr(255 - green));
    HexTextConcat(HexStr(255 - red) + HexStr(255 - green), HexStr(255 - blue));
    var out := "#" + HexStr(255 - red) + HexStr(255 - green) + HexStr(255 - blue);
    assert out[1..] == digits;
    out
  }

  /** `get_reverse_color`: after removing every '#', the first six characters
      are read as three channels; each channel x becomes 255 - x printed
      without padding.  Fewer than six characters raise before any channel
      is read; a character that is not a hexadecimal digit raises next. */
  function ReverseColor(color: string): (r: Result<string>)
    ensures var s := RemoveAll(color, "#");
      r.Success? <==> |s| >= 6 && forall i :: 0 <= i < 6 ==> HexValue(s[i]).Some?
    ensures r.Failure? ==> r.error == if |RemoveAll(color, "#")| < 6 then ShortString else BadInt
    ensures r.Success? ==> 4 <= |r.value| <= 7 && r.value[0] == '#'
    ensures r.Success? ==> IsHexText(r.value[1..])
  {
    var s := RemoveAll(color, "#");
    if |s| < 6 then Failure(ShortString)
    else
      match Channels(s)
      case Failure(e) => Failure(e)
      case Success((red, green, blue)) => Success(Inverted(red, green, blue))
  }

  /** Removing '#' from "#" followed by hexadecimal text leaves the text. */
  lemma StripHash(d: string)
    requires IsHexText(d)
    ensures RemoveAll("#" + d, "#") == d
  {
    RemoveAllLeading(d, "#");
    RemoveAllAbsent(d, "#");
  }

  /** On a padded "#rrggbb" colour every channel is replaced by 255 minus it. */
  lemma ReverseColorOfRgb(r: nat, g: nat, b: nat)
    requires r < 256 && g < 256 && b < 256
    ensures ReverseColor(RgbColor(r, g, b)) == Success("#" + HexStr(255 - r) + HexStr(255 - g) + HexStr(255 - b))
  {
    var d := Hex2(r) + Hex2(g) + Hex2(b);
    assert RgbColor(r, g, b) == "#" + d;
    Hex2IsHexText(r);
    Hex2IsHexText(g);
    Hex2IsHexText(b);
    HexTextConcat(Hex2(r), Hex2(g));
    HexTextConcat(Hex2(r) + Hex2(g), Hex2(b));
    StripHash(d);
    HexPairOfHex2(r);
    HexPairOfHex2(g);
    HexPairOfHex2(b);
    assert HexPair(d[0], d[1]) == Success(r);
    assert HexPair(d[2], d[3]) == Success(g);
    assert HexPair(d[4], d[5]) == Success(b);
    ReverseColorOfChannels(RgbColor(r, g, b), r, g, b);
  }

  /** Once the three channels are read, the result is fixed by them. */
  lemma ReverseColorOfChannels(color: string, red: nat, green: nat, blue: nat)
    requires var s := RemoveAll(color, "#");
      && |s| >= 6
      && HexPair(s[0], s[1]) == Success(red)
      && HexPair(s[2], s[3]) == Success(green)
      && HexPair(s[4], s[5]) == Success(blue)
    ensures ReverseColor(color) == Success("#" + HexStr(255 - red) + HexStr(255 - green) + HexStr(255 - blue))
  {
    assert Channels(RemoveAll(color, "#")) == Success((red, green, blue));
  }

  /** Inverting twice gives the colour back exactly when no channel lies in
      0..15 or 240..255, because those print as a single digit. */
  lemma ReverseTwice(r: nat, g: nat, b: nat)
    requires r < 256 && g < 256 && b < 256
    ensures ReverseColor(RgbColor(r, g, b)).Success?
    ensures var once := ReverseColor(RgbColor(r, g, b)).value;
      ReverseColor(once) == Success(RgbColor(r, g, b))
      <==> 16 <= r < 240 && 16 <= g < 240 && 16 <= b < 240
  {
    ReverseColorOfRgb(r, g, b);
    if 255 - r < 16 || 255 - g < 16 || 255 - b < 16 {
      SecondInversionFails(r, g, b);
    } else {
      SecondInversion(r, g, b);
    }
  }

  /** A channel above 239 inverts to a single digit, leaving fewer than six
      digits for the second inversion to read. */
  lemma SecondInversionFails(r: nat, g: nat, b: nat)
    requires r < 256 && g < 256 && b < 256
    requires 255 - r < 16 || 255 - g < 16 || 255 - b < 16
    ensures ReverseColor("#" + HexStr(255 - r) + HexStr(255 - g) + HexStr(255 - b)).Failure?
  {
    var d := HexStr(255 - r) + HexStr(255 - g) + HexStr(255 - b);
    assert "#" + HexStr(255 - r) + HexStr(255 - g) + HexStr(255 - b) == "#" + d;
    HexStrOfChannel(255 - r);
    HexStrOfChannel(255 - g);
    HexStrOfChannel(255 - b);
    HexTextConcat(HexStr(255 - r), HexStr(255 - g));
    HexTextConcat(HexStr(255 - r) + HexStr(255 - g), HexStr(255 - b));
    StripHash(d);
  }

  /** Printing three channels unpadded gives the padded "#rrggbb" colour
      exactly when every channel has two digits. */
  lemma PrintedColor(r: nat, g: nat, b: nat)
    requires r < 256 && g < 256 && b < 256
    ensures "#" + HexStr(r) + HexStr(g) + HexStr(b) == RgbColor(r, g, b)
      <==> r >= 16 && g >= 16 && b >= 16
  {
    HexStrOfChannel(r);
    HexStrOfChannel(g);
    HexStrOfChannel(b);
    var printed := "#" + HexStr(r) + HexStr(g) + HexStr(b);
    if r < 16 || g < 16 || b < 16 {
      assert |printed| < 7 == |RgbColor(r, g, b)|;
    }
  }

  /** With every channel at most 239 the first inversion is a padded colour
      again, and the second restores the input iff no channel was below 16. */
  lemma SecondInversion(r: nat, g: nat, b: nat)
    requires r < 256 && g < 256 && b < 256
    requires 255 - r >= 16 && 255 - g >= 16 && 255 - b >= 16
    ensures var once := "#" + HexStr(255 - r) + HexStr(255 - g) + HexStr(255 - b);
      ReverseColor(once) == Success(RgbColor(r, g, b)) <==> r >= 16 && g >= 16 && b >= 16
  {
    var once := "#" + HexStr(255 - r) + HexStr(255 - g) + HexStr(255 - b);
    PrintedColor(255 - r, 255 - g, 255 - b);
    assert once == RgbColor(255 - r, 255 - g, 255 - b);
    ReverseColorOfRgb(255 - r, 255 - g, 255 - b);
    assert 255 - (255 - r) == r && 255 - (255 - g) == g && 255 - (255 - b) == b;
    assert ReverseColor(once) == Success("#" + HexStr(r) + HexStr(g) + HexStr(b));
    PrintedColor(r, g, b);
  }

  /* ---------------------------------------------------------------------
     get_geometry / get_canvas_size
     --------------------------------------------------------------------- */

  /** `get_geometry`: "WxH+X+Y" with no spaces.  Its one 'x' and the two
      '+' after it separate the decimal texts of the four numbers, so
      splitting at 'x' and then at '+' takes the fields apart again. */
  function Geometry(width: int, height: int, x: int, y: int): (r: string)
    ensures var rest := IntStr(height) + "+" + IntStr(x) + "+" + IntStr(y);
      && Split(r, 'x') == [IntStr(width), rest]
      && Split(rest, '+') == [IntStr(height), IntStr(x), IntStr(y)]
  {
    var w, h, px, py := IntStr(width), IntStr(height), IntStr(x), IntStr(y);
    IntStrHasNoSymbol(width, 'x');
    IntStrHasNoSymbol(height, 'x');
    IntStrHasNoSymbol(x, 'x');
    IntStrHasNoSymbol(y, 'x');
    IntStrHasNoSymbol(height, '+');
    IntStrHasNoSymbol(x, '+');
    IntStrHasNoSymbol(y, '+');
    var rest := h + "+" + px + "+" + py;
    assert rest == h + ['+'] + (px + ['+'] + py);
    assert 'x' !in rest;
    SplitCons(w, rest, 'x');
    SplitNoSep(rest, 'x');
    SplitCons(h, px + ['+'] + py, '+');
    SplitCons(px, py, '+');
    SplitNoSep(py, '+');
    w + "x" + rest
  }

  /** `get_canvas_size(row, col)`: `col + 1` half-card columns and `row`
      card rows.  Python's `//` floors; for the divisor 2 so does Dafny's `/`. */
  function CanvasSize(cardWidth: int, cardHeight: int, row: int, col: int): (int, int) {
    ((cardWidth / 2) * (col + 1), cardHeight * row)
  }

  /** The canvas holds exactly `col + 1` half cards side by side, each at
      most half a pixel narrower than half a card, and `row` full cards one
      above the other. */
  lemma CanvasHoldsCards(cardWidth: nat, cardHeight: nat, row: nat, col: nat)
    ensures var (w, h) := CanvasSize(cardWidth, cardHeight, row, col);
      && 2 * w <= cardWidth * (col + 1) < 2 * w + 2 * (col + 1)
      && h == cardHeight * row
      && w == (col + 1) * (cardWidth / 2)
  {
    var half := cardWidth / 2;
    assert 2 * half <= cardWidth < 2 * half + 2;
    var n := col + 1;
    MulMonotone(2 * half, cardWidth, n);
    MulMonotone(cardWidth, 2 * half + 2, n);
    assert (2 * half) * n == 2 * (half * n);
    assert (2 * half + 2) * n == 2 * (half * n) + 2 * n;
  }

  lemma MulMonotone(a: int, b: int, n: nat)
    requires a <= b
    ensures a * n <= b * n
    ensures a < b && n > 0 ==> a * n < b * n
  {
  }

  /* ---------------------------------------------------------------------
     create_deckid_list: the expansion after the page has been scraped
     --------------------------------------------------------------------- */

  /** `n` copies of `id`; `range(n)` is empty for `n <= 0`. */
  function Repeat(id: string, n: int): (r: seq<string>)
    ensures |r| == if n > 0 then n else 0
    ensures forall k :: 0 <= k < |r| ==> r[k] == id
  {
    if n <= 0 then [] else [id] + Repeat(id, n - 1)
  }

  /** One "id_count_x" segment: exactly three '_' fields, the middle one an
      integer; contributes `count` copies of the id. */
  function ExpandSegment(data: string): (r: Result<seq<string>>)
    ensures var parts := Split(data, '_');
      r.Success? <==> |parts| == 3 && ParseInt(parts[1]).Success?
    ensures var parts := Split(data, '_');
      r.Failure? ==> r.error == if |parts| != 3 then BadUnpack else BadInt
    ensures r.Success? ==> forall k :: 0 <= k < |r.value| ==> r.value[k] == Split(data, '_')[0]
  {
    var parts := Split(data, '_');
    if |parts| != 3 then Failure(BadUnpack)
    else
      var n :- ParseInt(parts[1]);
      Success(Repeat(parts[0], n))
  }

  /** The segments of one hidden value, expanded in order; the first bad
      segment raises. */
  function ExpandSegments(segs: seq<string>): (r: Result<seq<string>>)
    ensures r.Success? <==> forall k :: 0 <= k < |segs| ==> ExpandSegment(segs[k]).Success?
    ensures r.Failure? ==> r.error == BadUnpack || r.error == BadInt
  {
    if |segs| == 0 then Success([])
    else
      var first :- ExpandSegment(segs[0]);
      var rest :- ExpandSegments(segs[1..]);
      Success(first + rest)
  }

  /** One hidden value: empty values are skipped, others split on '-'. */
  function ExpandValue(value: string): (r: Result<seq<string>>)
    ensures r.Failure? ==> r.error == BadUnpack || r.error == BadInt
  {
    if value == "" then Success([]) else ExpandSegments(Split(value, '-'))
  }

  /** All hidden values of the page, in page order. */
  function ExpandAll(values: seq<string>): (r: Result<seq<string>>)
    ensures r.Success? <==> forall k :: 0 <= k < |values| ==> ExpandValue(values[k]).Success?
    ensures r.Failure? ==> r.error == BadUnpack || r.error == BadInt
  {
    if |values| == 0 then Success([])
    else
      var first :- ExpandValue(values[0]);
      var rest :- ExpandAll(values[1..]);
      Success(first + rest)
  }

  /** `create_deckid_list` after scraping: the ids, but only if there are
      exactly 60 of them; otherwise nothing. */
  function DeckIds(values: seq<string>): (r: Result<seq<string>>)
    ensures r.Success? <==> ExpandAll(values).Success?
    ensures r.Failure? ==> r.error == ExpandAll(values).error
    ensures r.Success? && |ExpandAll(values).value| == 60 ==> r.value == ExpandAll(values).value
    ensures r.Success? && |ExpandAll(values).value| != 60 ==> r.value == []
    ensures r.Success? ==> |r.value| == 60 || r.value == []
  {
    var ids :- ExpandAll(values);
    Success(if |ids| == 60 then ids else [])
  }

  /** A deck-code entry: a card id, its count, and the trailing field the
      expansion ignores. */
  datatype Entry = Entry(id: string, count: nat, extra: string)

  /** Ids and extra fields must not contain either separator. */
  predicate PlainEntry(e: Entry) {
    '_' !in e.id && '-' !in e.id && '_' !in e.extra && '-' !in e.extra
  }

  function EncodeSegment(e: Entry): string {
    e.id + "_" + IntStr(e.count) + "_" + e.extra
  }

  function EncodeSegments(es: seq<Entry>): (r: seq<string>)
    ensures |r| == |es|
    ensures forall k :: 0 <= k < |es| ==> r[k] == EncodeSegment(es[k])
  {
    if |es| == 0 then [] else [EncodeSegment(es[0])] + EncodeSegments(es[1..])
  }

  /** The hidden value a deck page would carry for these entries. */
  function EncodeValue(es: seq<Entry>): string {
    Join(EncodeSegments(es), '-')
  }

  /** What the entries stand for: each id repeated its count, in order. */
  function Expanded(es: seq<Entry>): seq<string> {
    if |es| == 0 then [] else Repeat(es[0].id, es[0].count) + Expanded(es[1..])
  }

  lemma SplitSegment(e: Entry)
    requires PlainEntry(e)
    ensures Split(EncodeSegment(e), '_') == [e.id, IntStr(e.count), e.extra]
  {
    var n := IntStr(e.count);
    IntStrHasNoSymbol(e.count, '_');
    assert EncodeSegment(e) == e.id + ['_'] + (n + ['_'] + e.extra);
    SplitCons(e.id, n + ['_'] + e.extra, '_');
    SplitCons(n, e.extra, '_');
    SplitNoSep(e.extra, '_');
  }

  lemma ExpandEncodedSegment(e: Entry)
    requires PlainEntry(e)
    ensures ExpandSegment(EncodeSegment(e)) == Success(Repeat(e.id, e.count))
  {
    SplitSegment(e);
    ParseIntStr(e.count);
  }

  lemma {:induction false} ExpandEncodedSegments(es: seq<Entry>)
    requires forall k :: 0 <= k < |es| ==> PlainEntry(es[k])
    ensures ExpandSegments(EncodeSegments(es)) == Success(Expanded(es))
  {
    if |es| > 0 {
      ExpandEncodedSegment(es[0]);
      ExpandEncodedSegments(es[1..]);
      assert EncodeSegments(es)[1..] == EncodeSegments(es[1..]);
    }
  }

  /** Expanding an encoded hidden value gives each id its count of times,
      in entry order. */
  lemma ExpandEncode(es: seq<Entry>)
    requires forall k :: 0 <= k < |es| ==> PlainEntry(es[k])
    ensures ExpandValue(EncodeValue(es)) == Success(Expanded(es))
  {
    if |es| > 0 {
      var segs := EncodeSegments(es);
      SegmentsHaveNoDash(es);
      SplitJoin(segs, '-');
      assert segs[0][|es[0].id|] == '_';
      JoinNonEmpty(segs, '-');
      ExpandEncodedSegments(es);
    }
  }

  lemma SegmentsHaveNoDash(es: seq<Entry>)
    requires forall k :: 0 <= k < |es| ==> PlainEntry(es[k])
    ensures forall k :: 0 <= k < |es| ==> '-' !in EncodeSegments(es)[k]
  {
    forall k | 0 <= k < |es|
      ensures '-' !in EncodeSegments(es)[k]
    {
      NatStrHasNoSymbol(es[k].count, '-');
    }
  }

  lemma JoinNonEmpty(parts: seq<string>, sep: char)
    requires |parts| >= 1 && parts[0] != ""
    ensures Join(parts, sep) != ""
  {
    if |parts| > 1 {
      assert |Join(parts, sep)| >= |parts[0]|;
    }
  }

  /* ---------------------------------------------------------------------
     create_deck_image: where each card goes
     --------------------------------------------------------------------- */

  /** The top-left corner of card `i` in a 12-column grid of `w` x `h` cells. */
  function GridAt(i: nat, w: int, h: int): (int, int) {
    (w * (i % 12), h * (i / 12))
  }

  /** The placement loop of `create_deck_image`: nothing is placed unless
      the list has exactly 60 entries; then the column counter runs 0..11
      and wraps into the next row. */
  method DeckImageGrid(deck: seq<string>, w: int, h: int) returns (pos: seq<(int, int)>)
    ensures |deck| != 60 ==> pos == []
    ensures |deck| == 60 ==> |pos| == 60
    ensures |deck| == 60 ==> forall i :: 0 <= i < 60 ==> pos[i] == GridAt(i, w, h)
  {
    pos := [];
    if |deck| == 60 {
      var column, row := 0, 0;
      var i := 0;
      while i < |deck|
        invariant 0 <= i <= 60 && |pos| == i
        invariant column == i % 12 && row == i / 12
        invariant forall k :: 0 <= k < i ==> pos[k] == GridAt(k, w, h)
      {
        pos := pos + [(w * column, h * row)];
        column := column + 1;
        if column > 11 {
          column := 0;
          row := row + 1;
        }
        i := i + 1;
      }
    }
  }

  lemma MulInjective(w: int, a: nat, b: nat)
    requires w > 0 && a != b
    ensures w * a != w * b
  {
    if a < b {
      MulMonotone(a, b, w);
    } else if b < a {
      MulMonotone(b, a, w);
    }
  }

  /** With positive cell sizes two different cards never share a corner. */
  lemma GridDistinct(i: nat, j: nat, w: int, h: int)
    requires w > 0 && h > 0 && i != j
    ensures GridAt(i, w, h) != GridAt(j, w, h)
  {
    assert i == 12 * (i / 12) + i % 12;
    assert j == 12 * (j / 12) + j % 12;
    if i % 12 != j % 12 {
      MulInjective(w, i % 12, j % 12);
    } else {
      MulInjective(h, i / 12, j / 12);
    }
  }

  /** The 60 corners lie on the 12 w x 5 h picture, and every cell of the
      picture receives a card. */
  lemma GridFillsPicture(w: nat, h: nat)
    ensures forall i :: 0 <= i < 60 ==>
      0 <= GridAt(i, w, h).0 <= 11 * w && 0 <= GridAt(i, w, h).1 <= 4 * h
    ensures forall c, r :: 0 <= c < 12 && 0 <= r < 5 ==> GridAt(12 * r + c, w, h) == (w * c, h * r)
  {
    forall i | 0 <= i < 60
      ensures 0 <= GridAt(i, w, h).0 <= 11 * w && 0 <= GridAt(i, w, h).1 <= 4 * h
    {
      MulMonotone(i % 12, 11, w);
      MulMonotone(i / 12, 4, h);
      assert GridAt(i, w, h) == ((i % 12) * w, (i / 12) * h);
    }
    forall c, r | 0 <= c < 12 && 0 <= r < 5
      ensures GridAt(12 * r + c, w, h) == (w * c, h * r)
    {
      GridCell(c, r);
    }
  }

  lemma GridCell(c: nat, r: nat)
    requires c < 12
    ensures (12 * r + c) % 12 == c && (12 * r + c) / 12 == r
  {
  }
}

=== FILE: strings.dfy ===
/** Python string primitives used by the card table, each with its inverse.

    `Split` and `Join` are `str.split(sep)` and `sep.join(parts)` for a one
    character separator, `RemoveAll` is `str.replace(pat, "")`, `NatStr` and
    `IntStr` are `str(n)` on integers, and `ParseInt` is `int(s)` restricted to
    an optional minus sign followed by ASCII digits.  `LexLess` is Python's
    code-point order on strings.
 */
module Strings {
  import opened Outcomes

  /* ---------------------------------------------------------------------
     split / join
     --------------------------------------------------------------------- */

  /** `s.split(sep)`: the maximal separator-free pieces, always at least one. */
  function Split(s: string, sep: char): (parts: seq<string>)
    ensures |parts| >= 1
  {
    if |s| == 0 then [""]
    else
      var rest := Split(s[1..], sep);
      if s[0] == sep then [""] + rest
      else [[s[0]] + rest[0]] + rest[1..]
  }

  /** No piece of a split holds the separator. */
  lemma {:induction false} SplitPiecesFree(s: string, sep: char)
    ensures forall k :: 0 <= k < |Split(s, sep)| ==> sep !in Split(s, sep)[k]
  {
    if |s| > 0 {
      SplitPiecesFree(s[1..], sep);
    }
  }

  /** `sep.join(parts)`. */
  function Join(parts: seq<string>, sep: char): string
  {
    if |parts| == 0 then ""
    else if |parts| == 1 then parts[0]
    else parts[0] + [sep] + Join(parts[1..], sep)
  }

  lemma JoinTwo(parts: seq<string>, sep: char)
    requires |parts| == 2
    ensures Join(parts, sep) == parts[0] + [sep] + parts[1]
  {
    assert Join(parts[1..], sep) == parts[1];
  }

  lemma JoinThree(parts: seq<string>, sep: char)
    requires |parts| == 3
    ensures Join(parts, sep) == parts[0] + [sep] + parts[1] + [sep] + parts[2]
  {
    JoinTwo(parts[1..], sep);
  }

  /** The last element of a non-empty sequence, Python's `xs[-1]`. */
  function Last<T>(xs: seq<T>): T
    requires |xs| > 0
  {
    xs[|xs| - 1]
  }

  /** Joining the pieces of a split gives back the string. */
  lemma {:induction false} JoinSplit(s: string, sep: char)
    ensures Join(Split(s, sep), sep) == s
  {
    if |s| > 0 {
      var rest := Split(s[1..], sep);
      JoinSplit(s[1..], sep);
      if s[0] == sep {
        assert Split(s, sep) == [""] + rest;
        assert ([""] + rest)[1..] == rest;
      } else {
        var parts := [[s[0]] + rest[0]] + rest[1..];
        assert Split(s, sep) == parts;
        if |rest| == 1 {
          assert s == [s[0]] + s[1..];
        } else {
          assert parts[1..] == rest[1..];
          assert Join(rest, sep) == rest[0] + [sep] + Join(rest[1..], sep);
          assert s == [s[0]] + s[1..];
        }
      }
    }
  }

  /** A separator-free string is a single piece. */
  lemma {:induction false} SplitNoSep(a: string, sep: char)
    requires sep !in a
    ensures Split(a, sep) == [a]
  {
    if |a| > 0 {
      assert sep !in a[1..];
      SplitNoSep(a[1..], sep);
      assert a == [a[0]] + a[1..];
    }
  }

  /** A separator-free prefix followed by the separator becomes the first piece. */
  lemma {:induction false} SplitCons(a: string, b: string, sep: char)
    requires sep !in a
    ensures Split(a + [sep] + b, sep) == [a] + Split(b, sep)
  {
    if |a| == 0 {
      assert a + [sep] + b == [sep] + b;
      assert ([sep] + b)[1..] == b;
    } else {
      var s := a + [sep] + b;
      assert s[1..] == a[1..] + [sep] + b;
      assert sep !in a[1..];
      SplitCons(a[1..], b, sep);
      assert a == [a[0]] + a[1..];
    }
  }

  /** Splitting a join of separator-free pieces gives back the pieces. */
  lemma {:induction false} SplitJoin(parts: seq<string>, sep: char)
    requires |parts| >= 1
    requires forall k :: 0 <= k < |parts| ==> sep !in parts[k]
    ensures Split(Join(parts, sep), sep) == parts
  {
    if |parts| == 1 {
      SplitNoSep(parts[0], sep);
    } else {
      SplitJoin(parts[1..], sep);
      SplitCons(parts[0], Join(parts[1..], sep), sep);
      assert [parts[0]] + parts[1..] == parts;
    }
  }

  /** Splitting at a separator splits each side on its own. */
  lemma {:induction false} SplitAppend(a: string, b: string, sep: char)
    ensures Split(a + [sep] + b, sep) == Split(a, sep) + Split(b, sep)
  {
    var s := a + [sep] + b;
    if |a| == 0 {
      assert s == [sep] + b;
      assert s[1..] == b;
    } else {
      assert s[1..] == a[1..] + [sep] + b;
      SplitAppend(a[1..], b, sep);
      SplitAppendStep(a, b, sep);
    }
  }

  /** The step of `SplitAppend`: the head character of `a` is put back. */
  lemma SplitAppendStep(a: string, b: string, sep: char)
    requires |a| > 0
    requires Split(a[1..] + [sep] + b, sep) == Split(a[1..], sep) + Split(b, sep)
    ensures Split(a + [sep] + b, sep) == Split(a, sep) + Split(b, sep)
  {
    var s := a + [sep] + b;
    assert s[0] == a[0] && s[1..] == a[1..] + [sep] + b;
    if a[0] == sep {
      SplitAppendAtSep(a, s, Split(b, sep), sep);
    } else {
      SplitAppendAtChar(a, s, Split(b, sep), sep);
    }
  }

  lemma SplitAppendAtSep(a: string, s: string, right: seq<string>, sep: char)
    requires |a| > 0 && a[0] == sep
    requires |s| > 0 && s[0] == a[0]
    requires Split(s[1..], sep) == Split(a[1..], sep) + right
    ensures Split(s, sep) == Split(a, sep) + right
  {
    var left := Split(a[1..], sep);
    SplitAtSep(s, sep);
    SplitAtSep(a, sep);
    calc {
      Split(s, sep);
      [""] + (left + right);
      { SeqAssoc([""], left, right); }
      ([""] + left) + right;
    }
  }

  lemma SplitAppendAtChar(a: string, s: string, right: seq<string>, sep: char)
    requires |a| > 0 && a[0] != sep
    requires |s| > 0 && s[0] == a[0]
    requires Split(s[1..], sep) == Split(a[1..], sep) + right
    ensures Split(s, sep) == Split(a, sep) + right
  {
    SplitAtChar(s, sep);
    SplitAtChar(a, sep);
    ExtendFirst(a[0], Split(a[1..], sep), right);
  }

  lemma SeqAssoc<T>(x: seq<T>, y: seq<T>, z: seq<T>)
    ensures x + (y + z) == (x + y) + z
  {
  }

  /** Splitting a string that starts with the separator. */
  lemma SplitAtSep(s: string, sep: char)
    requires |s| > 0 && s[0] == sep
    ensures Split(s, sep) == [""] + Split(s[1..], sep)
  {
  }

  /** Splitting a string that starts with an ordinary character. */
  lemma SplitAtChar(s: string, sep: char)
    requires |s| > 0 && s[0] != sep
    ensures Split(s, sep) == [[s[0]] + Split(s[1..], sep)[0]] + Split(s[1..], sep)[1..]
  {
  }

  /** Putting a character in front of the first piece commutes with
      appending more pieces. */
  lemma ExtendFirst(c: char, left: seq<string>, right: seq<string>)
    requires |left| > 0
    ensures [[c] + (left + right)[0]] + (left + right)[1..]
         == ([[c] + left[0]] + left[1..]) + right
  {
    assert (left + right)[0] == left[0];
    assert (left + right)[1..] == left[1..] + right;
  }

  /* ---------------------------------------------------------------------
     reading a text file
     --------------------------------------------------------------------- */

  /** What a text-mode read with the default `newline=None` makes of a
      file's characters: every "\r\n" and every lone '\r' becomes '\n'. */
  function UniversalNewlines(s: string): (r: string)
    ensures '\r' !in r
    ensures '\r' !in s ==> r == s
    ensures |r| <= |s|
  {
    if |s| == 0 then ""
    else if s[0] == '\r' then
      if |s| > 1 && s[1] == '\n' then "\n" + UniversalNewlines(s[2..])
      else "\n" + UniversalNewlines(s[1..])
    else
      assert '\r' !in s ==> '\r' !in s[1..];
      [s[0]] + UniversalNewlines(s[1..])
  }

  /** Text without '\r' in front is read unchanged. */
  lemma {:induction false} UniversalNewlinesPrefix(a: string, b: string)
    requires '\r' !in a
    ensures UniversalNewlines(a + b) == a + UniversalNewlines(b)
  {
    if |a| > 0 {
      assert (a + b)[0] == a[0] && a[0] != '\r';
      assert (a + b)[1..] == a[1..] + b;
      assert '\r' !in a[1..];
      UniversalNewlinesPrefix(a[1..], b);
      assert UniversalNewlines(a + b) == [a[0]] + UniversalNewlines(a[1..] + b);
      assert a == [a[0]] + a[1..];
    } else {
      assert a + b == b;
    }
  }

  /** A '\r' not followed by '\n' is read as a line break of its own. */
  lemma UniversalNewlinesLoneReturn(b: string)
    requires |b| == 0 || b[0] != '\n'
    ensures UniversalNewlines("\r" + b) == "\n" + UniversalNewlines(b)
  {
    assert ("\r" + b)[1..] == b;
  }

  /** A "\r\n" after text without '\r' reads as a single '\n'. */
  lemma UniversalNewlinesCrLf(a: string, b: string)
    requires '\r' !in a
    ensures UniversalNewlines(a + ("\r\n" + b)) == a + ("\n" + UniversalNewlines(b))
  {
    UniversalNewlinesPrefix(a, "\r\n" + b);
    assert ("\r\n" + b)[2..] == b;
  }

  /** A lone '\r' between two texts without '\r' reads as '\n'. */
  lemma UniversalNewlinesReturnBetween(a: string, b: string)
    requires '\r' !in a && '\r' !in b
    requires |b| == 0 || b[0] != '\n'
    ensures UniversalNewlines(a + ("\r" + b)) == a + ("\n" + b)
  {
    UniversalNewlinesPrefix(a, "\r" + b);
    UniversalNewlinesLoneReturn(b);
  }

  /** A join of pieces and a separator free of some character is free of it. */
  lemma {:induction false} JoinAvoids(parts: seq<string>, sep: char, c: char)
    requires c != sep
    requires forall k :: 0 <= k < |parts| ==> c !in parts[k]
    ensures c !in Join(parts, sep)
  {
    if |parts| > 1 {
      JoinAvoids(parts[1..], sep, c);
    }
  }

  /* ---------------------------------------------------------------------
     replace(pat, "")
     --------------------------------------------------------------------- */

  /** `s.replace(pat, "")`: deletes the leftmost non-overlapping occurrences. */
  function RemoveAll(s: string, pat: string): string
    requires |pat| > 0
    decreases |s|
  {
    if |s| < |pat| then s
    else if s[..|pat|] == pat then RemoveAll(s[|pat|..], pat)
    else [s[0]] + RemoveAll(s[1..], pat)
  }

  /** A prefix that never starts the pattern survives the removal untouched. */
  lemma {:induction false} RemoveAllKeepsPrefix(a: string, b: string, pat: string)
    requires |pat| > 0
    requires pat[0] !in a
    ensures RemoveAll(a + b, pat) == a + RemoveAll(b, pat)
  {
    if |a| > 0 {
      var s := a + b;
      if |s| >= |pat| {
        assert s[..|pat|][0] == a[0];
        assert s[..|pat|] != pat;
        assert RemoveAll(s, pat) == [s[0]] + RemoveAll(s[1..], pat);
        assert s[1..] == a[1..] + b;
        assert pat[0] !in a[1..];
        RemoveAllKeepsPrefix(a[1..], b, pat);
        assert a == [a[0]] + a[1..];
      } else {
        RemoveAllShort(b, pat);
        RemoveAllShort(s, pat);
      }
    } else {
      assert a + b == b;
    }
  }

  /** Strings shorter than the pattern are left as they are. */
  lemma RemoveAllShort(s: string, pat: string)
    requires |pat| > 0 && |s| < |pat|
    ensures RemoveAll(s, pat) == s
  {
  }

  /** A string in which the pattern's first character never occurs is unchanged. */
  lemma RemoveAllAbsent(s: string, pat: string)
    requires |pat| > 0
    requires pat[0] !in s
    ensures RemoveAll(s, pat) == s
  {
    RemoveAllKeepsPrefix(s, "", pat);
    assert s + "" == s;
  }

  /** Removing a pattern from `pat + s` removes the leading copy. */
  lemma RemoveAllLeading(s: string, pat: string)
    requires |pat| > 0
    ensures RemoveAll(pat + s, pat) == RemoveAll(s, pat)
  {
    assert (pat + s)[..|pat|] == pat;
    assert (pat + s)[|pat|..] == s;
  }

  /** Removing a pattern from `s + pat` strips the trailing copy. */
  lemma RemoveAllTrailing(s: string, pat: string)
    requires |pat| > 0
    requires pat[0] !in s
    ensures RemoveAll(s + pat, pat) == s
  {
    RemoveAllKeepsPrefix(s, pat, pat);
    RemoveAllLeading("", pat);
    assert pat + "" == pat;
  }

  /* ---------------------------------------------------------------------
     str(int) / int(str)
     --------------------------------------------------------------------- */

  predicate IsDigit(c: char) {
    '0' <= c <= '9'
  }

  predicate AllDigits(s: string) {
    forall i :: 0 <= i < |s| ==> IsDigit(s[i])
  }

  function DigitChar(d: nat): (c: char)
    requires d < 10
    ensures IsDigit(c) && c as int - '0' as int == d
  {
    ('0' as int + d) as char
  }

  /** `str(n)` for a non-negative integer: decimal, no leading zeros. */
  function NatStr(n: nat): (r: string)
    ensures |r| >= 1 && AllDigits(r)
    ensures |r| > 1 ==> r[0] != '0'
  {
    if n < 10 then [DigitChar(n)] else NatStr(n / 10) + [DigitChar(n % 10)]
  }

  /** The value of a string of decimal digits, leading zeros allowed. */
  function DigitsValue(s: string): nat
    requires AllDigits(s)
  {
    if |s| == 0 then 0
    else 10 * DigitsValue(s[..|s| - 1]) + (s[|s| - 1] as int - '0' as int)
  }

  /** `int(s)` for a string of ASCII digits; anything else is not a number. */
  function ParseNat(s: string): Option<nat>
  {
    if |s| > 0 && AllDigits(s) then Some(DigitsValue(s)) else None
  }

  /** `str(i)`: a minus sign before the digits of a negative value. */
  function IntStr(i: int): string
  {
    if i < 0 then "-" + NatStr(-i) else NatStr(i)
  }

  /** `int(s)`: an optional minus sign followed by ASCII digits. */
  function ParseInt(s: string): (r: Result<int>)
    ensures r.Failure? ==> r.error == BadInt
  {
    if |s| > 0 && s[0] == '-' then
      match ParseNat(s[1..])
      case Some(n) => Success(-(n as int))
      case None => Failure(BadInt)
    else
      match ParseNat(s)
      case Some(n) => Success(n)
      case None => Failure(BadInt)
  }

  /** Parsing the decimal text of a natural number gives the number back. */
  lemma {:induction false} ParseNatStr(n: nat)
    ensures ParseNat(NatStr(n)) == Some(n)
  {
    if n >= 10 {
      ParseNatStr(n / 10);
      var s := NatStr(n);
      assert s[..|s| - 1] == NatStr(n / 10);
      assert DigitsValue(NatStr(n / 10)) == n / 10;
      assert s[|s| - 1] == DigitChar(n % 10);
      assert DigitsValue(s) == 10 * (n / 10) + n % 10;
    }
  }

  /** `int(str(i)) == i` for every integer. */
  lemma ParseIntStr(i: int)
    ensures ParseInt(IntStr(i)) == Success(i)
  {
    var s := IntStr(i);
    if i < 0 {
      ParseNatStr(-i);
      assert s == "-" + NatStr(-i);
      assert s[0] == '-' && s[1..] == NatStr(-i);
    } else {
      ParseNatStr(i);
      assert s == NatStr(i) && IsDigit(s[0]);
    }
  }

  /** The decimal text of a number never holds a separator the model uses. */
  lemma NatStrHasNoSymbol(n: nat, c: char)
    requires !IsDigit(c)
    ensures c !in NatStr(n)
  {
  }

  /** Same for signed numbers, as long as the character is not the sign. */
  lemma IntStrHasNoSymbol(i: int, c: char)
    requires !IsDigit(c) && c != '-'
    ensures c !in IntStr(i)
  {
    NatStrHasNoSymbol(if i < 0 then -i else i, c);
  }

  /* ---------------------------------------------------------------------
     Code-point order
     --------------------------------------------------------------------- */

  /** Python's `a < b` on strings: lexicographic by code point, a proper
      prefix sorting first. */
  predicate LexLess(a: string, b: string)
  {
    if |a| == 0 then |b| > 0
    else if |b| == 0 then false
    else if a[0] != b[0] then a[0] < b[0]
    else LexLess(a[1..], b[1..])
  }

  lemma {:induction false} LexLessIrreflexive(a: string)
    ensures !LexLess(a, a)
  {
    if |a| > 0 {
      LexLessIrreflexive(a[1..]);
    }
  }

  lemma {:induction false} LexLessTotal(a: string, b: string)
    requires a != b
    ensures LexLess(a, b) || LexLess(b, a)
  {
    if |a| > 0 && |b| > 0 && a[0] == b[0] {
      assert a == [a[0]] + a[1..] && b == [b[0]] + b[1..];
      LexLessTotal(a[1..], b[1..]);
    }
  }

  lemma {:induction false} LexLessAsymmetric(a: string, b: string)
    requires LexLess(a, b)
    ensures !LexLess(b, a)
  {
    if |a| > 0 && |b| > 0 && a[0] == b[0] {
      LexLessAsymmetric(a[1..], b[1..]);
    }
  }

  lemma {:induction false} LexLessTransitive(a: string, b: string, c: string)
    requires LexLess(a, b) && LexLess(b, c)
    ensures LexLess(a, c)
  {
    if |a| > 0 && |b| > 0 && |c| > 0 && a[0] == b[0] && b[0] == c[0] {
      LexLessTransitive(a[1..], b[1..], c[1..]);
    }
  }
}

=== FILE: zones.dfy ===
/** One zone of the table: a Python list of cards (GameEngine.py
    `GameSystem.list`) and the list operations every zone shares.

    Cards are compared by value; on a table whose card ids are distinct this
    is the same as Python's object identity, which `list.remove` uses.
 */
module Zones {
  import opened Outcomes
  import opened Cards

  type Zone = seq<Card>

  /* ---------------------------------------------------------------------
     Removal (`pop_card`)
     --------------------------------------------------------------------- */

  /** `list.pop(0)`: the front card and the cards behind it, in order. */
  function PopFront(z: Zone): (r: Result<(Card, Zone)>)
    ensures r.Success? <==> |z| > 0
    ensures r.Failure? ==> r.error == EmptyPop
    ensures r.Success? ==> [r.value.0] + r.value.1 == z
  {
    if |z| == 0 then Failure(EmptyPop) else Success((z[0], z[1..]))
  }

  /** Position of the first occurrence of `c`. */
  function FirstIndex(z: Zone, c: Card): (k: nat)
    requires c in z
    ensures k < |z| && z[k] == c
    ensures c !in z[..k]
  {
    if z[0] == c then 0
    else
      var k := 1 + FirstIndex(z[1..], c);
      assert z[..k] == [z[0]] + z[1..][..k - 1];
      k
  }

  /** `list.remove(c)`: drops the first occurrence of `c`, keeping every
      other card in its order; raises when `c` is absent. */
  function RemoveFirst(z: Zone, c: Card): (r: Result<Zone>)
    ensures r.Success? <==> c in z
    ensures r.Failure? ==> r.error == NotInList
    ensures r.Success? ==>
      var k := FirstIndex(z, c);
      r.value == z[..k] + z[k + 1..]
  {
    if |z| == 0 then Failure(NotInList)
    else if z[0] == c then Success(z[1..])
    else
      match RemoveFirst(z[1..], c)
      case Failure(e) => Failure(e)
      case Success(rest) =>
        var k := FirstIndex(z[1..], c);
        assert FirstIndex(z, c) == k + 1;
        SpliceCons(z, k);
        Success([z[0]] + rest)
  }

  /** Putting the head back in front of a splice of the tail. */
  lemma SpliceCons(z: Zone, k: nat)
    requires k + 1 < |z|
    ensures [z[0]] + (z[1..][..k] + z[1..][k + 1..]) == z[..k + 1] + z[k + 2..]
  {
    assert z[..k + 1] == [z[0]] + z[1..][..k];
    assert z[k + 2..] == z[1..][k + 1..];
  }

  /** `pop_card(card)`: the front card when none is named, else the named
      card; returns the card taken and what is left. */
  function PopCard(z: Zone, card: Option<Card>): (r: Result<(Card, Zone)>)
    ensures card.None? ==> r == PopFront(z)
    ensures card.Some? ==> (r.Success? <==> card.value in z)
    ensures card.Some? && r.Failure? ==> r.error == NotInList
    ensures r.Success? ==> multiset(z) == multiset(r.value.1) + multiset{r.value.0}
    ensures card.Some? && r.Success? ==> r.value.0 == card.value
  {
    match card
    case None => PopFront(z)
    case Some(c) =>
      match RemoveFirst(z, c)
      case Failure(e) => Failure(e)
      case Success(rest) =>
        var k := FirstIndex(z, c);
        assert z == z[..k] + [c] + z[k + 1..];
        Success((c, rest))
  }

  /** `add_card`: appends at the back; nothing already there moves. */
  function AddCard(z: Zone, c: Card): (r: Zone)
    ensures |r| == |z| + 1 && r[..|z|] == z && r[|z|] == c
  {
    z + [c]
  }

  /** `find_card(tag)`: the position of the first card whose id is `tag`. */
  function FindIndex(z: Zone, tag: string): (r: Option<nat>)
    ensures r.Some? ==> r.value < |z| && z[r.value].id == tag
    ensures r.Some? ==> forall i :: 0 <= i < r.value ==> z[i].id != tag
    ensures r.None? <==> forall i :: 0 <= i < |z| ==> z[i].id != tag
  {
    if |z| == 0 then None
    else if z[0].id == tag then Some(0)
    else
      match FindIndex(z[1..], tag)
      case None => None
      case Some(k) => Some(k + 1)
  }

  /** `find_card(tag)`: the first card with that id, or `None`. */
  function FindCard(z: Zone, tag: string): (r: Option<Card>)
    ensures r.Some? ==> r.value.id == tag
    ensures r.Some? ==> exists k :: 0 <= k < |z| && z[k] == r.value && forall i :: 0 <= i < k ==> z[i].id != tag
    ensures r.None? <==> forall i :: 0 <= i < |z| ==> z[i].id != tag
  {
    match FindIndex(z, tag)
    case None => None
    case Some(k) => Some(z[k])
  }

  /* ---------------------------------------------------------------------
     Shuffle (`random.shuffle`)
     --------------------------------------------------------------------- */

  function Swap(s: Zone, i: nat, j: nat): (r: Zone)
    requires i < |s| && j < |s|
    ensures |r| == |s| && multiset(r) == multiset(s)
  {
    s[i := s[j]][j := s[i]]
  }

  /** The draw for one step: the next supplied number reduced below `bound`,
      standing in for `randbelow(bound)`. */
  function Draw(draws: seq<nat>, bound: nat): (j: nat)
    requires bound > 0
    ensures j < bound
  {
    (if |draws| > 0 then draws[0] else 0) % bound
  }

  /** Python's Fisher-Yates loop from position `i` down to 1: swap `i` with
      a drawn position `j <= i`. */
  function ShuffleSteps(s: Zone, i: nat, draws: seq<nat>): (r: Zone)
    requires i < |s|
    ensures |r| == |s| && multiset(r) == multiset(s)
    decreases i
  {
    if i == 0 then s
    else
      var j := Draw(draws, i + 1);
      ShuffleSteps(Swap(s, i, j), i - 1, if |draws| > 0 then draws[1..] else [])
  }

  /** `random.shuffle(list)`: some permutation of the zone, chosen by the
      supplied draws. */
  function Shuffle(s: Zone, draws: seq<nat>): (r: Zone)
    ensures |r| == |s| && multiset(r) == multiset(s)
  {
    if |s| <= 1 then s else ShuffleSteps(s, |s| - 1, draws)
  }
}
